=== FILE: README.md ===
# techmarket-api in Dafny

A model of the request-handling core of techmarket-api, an Express service for an online shop. The model covers:

- **Products**, served twice. One stack uses Prisma (`product.controller.ts` over `product.model.ts`). The other sends SQL text to PostgreSQL through `pg` (`productController.ts` over `productModel.ts`).
- **Reviews**, held in a MongoDB collection (`review.controller.ts` over `review.model.ts`).
- **Shopping carts** (`shoppingCart.controller.ts` over `shoppingCart.model.ts`).
- **The central error middleware** (`errorHandler.ts`).

Each handler is a function or a method from the request to an `Outcome`. An `Outcome` is either a response (`Send(status, payload)`) or a failure handed to `next` (`Forward(failure)`). The database is a parameter:

- a Prisma client is a function from a `PrismaCall` to an `Answer`: a record, nothing, or a thrown failure;
- the `pg` pool is a function from a `SqlCommand` (text plus parameters) to rows or a failure;
- the reviews collection is a function from a `MongoCall` to an answer, plus a flag saying whether the collection is connected.

So every contract holds whatever the database answers.

Some things are written out because the handlers depend on them:

- **JavaScript semantics (module `Js`).** `String(v)`, truthiness, loose `==` against "true"/"false", and `parseInt` both with and without a radix of 10. `None` stands for NaN.
- **The SQL text.** The model states that the `$n` placeholders of every statement count 1, 2, … up to the number of parameters.
- **The shopping cart store.** It is a class whose two tables (`carts`: user to cart id; `lines`: (product, cart) to quantity) are updated in place.

Some behaviours of the code that the model keeps as written:

- **Review paging is not clamped.** `parseInt` of "-2" gives -2, which is truthy, so it is kept, and a page of 0 or below skips backwards (`ReviewModel.PageZeroSkipsBackwards`, `ReviewController.GivenPageKept`).
- **A PATCH of a review accepts a malformed id.** A `productId` that is not a valid ObjectId is stored as the string that was sent (`ReviewController.InvalidIdKeptAsSent`).
- The cart controller accepts negative ids (`CartController.NegativeIdAccepted`). The `pg` search puts the sort direction into the SQL text as it is, without a placeholder (`PgProductModel.SortDirectionIsInterpolated`).

## Model

| member | source | states |
|---|---|---|
| ErrorHandler.Responses | src/middleware/errorHandler.ts:3-43 | the middleware as written sends two responses (404 then the code branch) when the message mentions "Record not found"/"Not found", else one; the last is always the code-branch reply |
| ErrorHandler.Respond | src/middleware/errorHandler.ts:11-42 | the response the client receives: 404 exactly for a not-found message or code P2025, 409 exactly for 23505, `detail` only for the three SQL codes, always a 4xx/5xx status |
| ErrorHandler.ResponsesAreErrors | src/middleware/errorHandler.ts:19-42 | every response sent is 400, 404, 409 or 500, and `detail` is attached only for SQLSTATE 23505/23503/23502 |
| ErrorHandler.DoubleResponse | src/middleware/errorHandler.ts:11-25 | a "Not found" error with code 23505 produces a 404 followed by a 409 |
| ErrorHandler.RecordNotFoundThenServerError | src/middleware/errorHandler.ts:11-22 | `new Error("Record not found")` produces a 404 followed by a 500 |
| ErrorHandler.WithoutCapitalsIsServerError | src/middleware/errorHandler.ts:11-22 | a plain error whose message has no "R" and no "N" gets a single 500 |
| ErrorHandler.MissingCartIsServerError | src/models/shoppingCart.model.ts:82-84 | "Shopping cart not found for user" matches neither phrase (case differs) and becomes a 500 |
| ErrorHandler.NumericCodeIsServerError | src/middleware/errorHandler.ts:19-39 | a numeric code (MongoDB's 11000) matches no string code: one 500 with "Error: " and the error text |
| Http.PlainError | src/models/review.model.ts:18 | `new Error(message)` carries the message and neither code nor detail |
| Js.ParseIntReadsNat | src/models/product.model.ts:26 | `parseInt` reads back the decimal rendering of any natural number, and of its negation |
| Js.ParseIntReadsNatToString | src/controllers/shoppingCart.controller.ts:15-17 | `parseInt` stops at the first non-digit: a number followed by text that starts with neither a digit nor `x`/`X` reads as that number (after a lone 0, `x` would start a hexadecimal number) |
| Js.ParseIntSkipsWhiteSpace | src/controllers/shoppingCart.controller.ts:15-17 | leading white space never changes what `parseInt` reads |
| Js.ParseIntZero | src/controllers/shoppingCart.controller.ts:19-20 | "0" parses to 0 under both radix modes |
| Js.NatToStringValue | src/models/productModel.ts:80-82 | the decimal rendering of `n` has digit value `n` (the `$${i + 1}` placeholder numbers) |
| Js.DigitPrefix | src/controllers/shoppingCart.controller.ts:15-17 | the digits `parseInt` consumes: a prefix, all digits in the base, and followed by a non-digit or the end |
| Js.ToUpperAscii | src/models/productModel.ts:119 | `toUpperCase` on ASCII: same length, each letter mapped to its capital |
| Records.KeysOf | src/controllers/product.controller.ts:121-133 | the keys of an object literal, in insertion order |
| Records.ValuesOf | src/models/productModel.ts:89 | `Object.values`: the values in insertion order |
| Records.ObjectOf | src/controllers/review.controller.ts:68-78 | an object literal built from its keys and values, in order |
| Records.PropsInOrder | src/models/productModel.ts:55-64 | with distinct keys, reading each key of an object yields the value stored under it |
| ProductRequest.NormaliseUpdate | src/controllers/product.controller.ts:108-133 | the allow-list loop: exactly the allowed keys with defined values, in allow-list order, each coerced by its rule (price by parseFloat, stockCount by parseInt, isAvailable by `== "true"`); empty exactly when nothing allowed is present |
| ProductRequest.SelectedKeys | src/controllers/productController.ts:155-167 | a key reaches the update object iff it is allowed and its body value is defined |
| ProductRequest.SelectedSound | src/controllers/productController.ts:155-167 | each property of the update object is an allowed key with its coerced body value |
| ProductRequest.SelectedEmpty | src/controllers/product.controller.ts:135-138 | the update object is empty iff no allowed key has a defined value |
| ProductRequest.SelectedIgnoresOtherKeys | src/controllers/product.controller.ts:121-133 | adding or removing a key outside the list never changes the update object |
| ProductRequest.UnknownKeysDropped | src/controllers/product.controller.ts:108-133 | `id`, `categoryId` or any key outside the allow-list is never forwarded to the update |
| ProductRequest.OnlyUnknownKeysIsEmpty | src/controllers/productController.ts:169-170 | a body with only unknown keys yields nothing to update (the 400 path) |
| ProductRequest.NameAndPriceExample | src/tests/product.test.ts:93-103 | the test's PATCH body yields exactly name as sent and price through parseFloat |
| ProductRequest.IsAvailableCoercion | src/controllers/product.controller.ts:127-128 | `isAvailable == "true"` stores true for "true" and ["true"], false for the boolean true, "false" and null |
| ProductRequest.StockCountCoercion | src/controllers/product.controller.ts:125-126 | a stock count sent as a number or as its string gives the same integer |
| ProductRequest.StockCountText | src/controllers/product.controller.ts:125-126 | a word that is not a number stores NaN |
| ProductRequest.AvailabilityFilter | src/controllers/product.controller.ts:22-26 | the filter is true iff the parameter is loosely "true", false iff loosely "false", otherwise none |
| ProductRequest.AvailabilityFilterExamples | src/controllers/productController.ts:21-25 | "banana", "TRUE" and a missing parameter add no filter |
| ProductModel.IdArgDecimal | src/models/product.model.ts:24-29 | `parseInt(id)` of a decimal id string is that id |
| ProductModel.IdArgExample | src/tests/product.test.ts:106-110 | the test's id "999" is the integer 999 |
| ProductModel.SearchArgs | src/models/product.model.ts:88-108 | `where` is the availability filter exactly when one is given, `orderBy` the sort value exactly when it is truthy; no criteria gives empty arguments |
| ProductModel.UpdateCall | src/models/product.model.ts:61-76 | an empty update throws "No fields provided for update"; otherwise the update of `parseInt(id)` with exactly the given fields |
| ProductModel.CreateData | src/models/product.model.ts:31-59 | the create data has the eight columns in order, each the product's property, except `categoryId`, which goes through parseInt |
| ProductModel.MissingCategoryIdIsNaN | src/models/product.model.ts:48 | a product without `categoryId` is created with `parseInt(undefined)`, NaN |
| ProductModel.ProductColumnsDistinct | src/models/product.model.ts:46-55 | the eight column names are distinct |
| ProductController.Settle | src/controllers/product.controller.ts:43-59 | 200 with the payload exactly for a record, 404 with the message exactly for null, and a thrown failure forwarded unchanged |
| ProductController.ListProducts | src/controllers/product.controller.ts:13-41 | the search call is made iff `sortByPrice` is truthy or `isAvailable` is present, with the decoded filter and an order iff `sortByPrice` is truthy, that order being `sortByPrice` itself; otherwise every product; rows give 200, a failure is forwarded |
| ProductController.GetProduct | src/controllers/product.controller.ts:43-59 | a record gives 200 with it, no record gives 404 "Product of the given Id was not found! ", a throw is forwarded |
| ProductController.NewProductAsWritten | src/controllers/product.controller.ts:78-87 | the object the handler builds has no `categoryId` key (it sends `category`) |
| ProductController.CreateLosesCategory | src/models/product.model.ts:48 | through the code as written, the create data sent to Prisma carries `categoryId` NaN, whatever the body says |
| ProductController.NewProduct | src/controllers/product.controller.ts:78-87 | the corrected object has the model's eight columns in order |
| ProductController.CreateKeepsCategory | src/models/product.model.ts:46-56 | with the corrected object a decimal `categoryId` in the body reaches the create data |
| ProductController.NewProductProps | src/controllers/product.controller.ts:78-87 | each column of the corrected object reads back its own value |
| ProductController.CreateCopiesTheRest | src/models/product.model.ts:46-56 | every create column but `categoryId` is the handler's value unchanged |
| ProductController.CreateProduct | src/controllers/product.controller.ts:61-98 | the object built as written (`category`, no `categoryId`) goes to `createProduct`; a created record gives 201 with it, a failure is forwarded |
| ProductController.CreateProductCorrected | src/controllers/product.controller.ts:61-98 | the same handler over the corrected object, which carries the body's `categoryId`; 201 with the created record, or the failure forwarded |
| ProductController.PartlyChangeProduct | src/controllers/product.controller.ts:100-159 | no allowed field gives 400 and no call; otherwise exactly the update of the normalised fields, answered 200/404/forwarded |
| ProductController.DeleteProduct | src/controllers/product.controller.ts:161-183 | a deleted record gives 200 with it, null gives 404, a throw is forwarded |
| ProductController.ProductDetails | src/controllers/product.controller.ts:185-199 | the product with relations gives 200, none gives 404 "Product not found", a throw is forwarded |
| ProductController.DeleteMissingIs404 | src/models/product.model.ts:78-86 | a delete of a missing id rejects (the tests' mock with `Error("Record not found")`, the Prisma client with code P2025); the handler forwards the rejection unchanged and the middleware answers it with 404 |
| PgProductModel.Range | src/models/productModel.ts:80-82 | the numbers `start`, `start + 1`, … of a run of placeholders |
| PgProductModel.PlaceholdersSkip | src/models/productModel.ts:85-87 | text without `$` adds no placeholder |
| PgProductModel.PlaceholderThen | src/models/productModel.ts:80-82 | `$n` followed by a non-digit is exactly placeholder `n` |
| PgProductModel.ParamListPlaceholders | src/models/productModel.ts:43-52 | a list `$start, $(start + 1), …` of `n` placeholders holds the numbers start … start + n - 1, in order |
| PgProductModel.SetItems | src/models/productModel.ts:80-82 | item `j` of the SET clause is `"key" = $(start + j)` |
| PgProductModel.UpdateStatement | src/models/productModel.ts:71-91 | an empty update throws; otherwise the parameters are the field values in order followed by the id |
| PgProductModel.SetClausePlaceholders | src/models/productModel.ts:80-82 | the SET clause over `n` keys holds exactly the placeholders `start` … `start + n - 1`, in order |
| PgProductModel.UpdatePlaceholdersMatchParams | src/models/productModel.ts:80-89 | in the UPDATE text the placeholders appear in the order 1 … the number of parameters, each exactly once |
| PgProductModel.UpdateBindsColumns | src/models/productModel.ts:80-89 | the UPDATE text is the SET items joined by ", " then the WHERE on `$(n + 1)`; item `j` is `"key_j" = $(j + 1)` and parameter `j` is the value of the same field, the last parameter the id: each value binds to its column and the id to the WHERE |
| PgProductModel.IdClausePlaceholders | src/models/productModel.ts:85-87 | the WHERE id clause holds exactly one placeholder, the last number |
| PgProductModel.SearchStatement | src/models/productModel.ts:99-126 | a truthy non-string `sortByPrice` throws "toUpperCase is not a function"; otherwise the text has the WHERE clause iff a filter is given and the ORDER BY iff the sort is truthy, and the single parameter is the filter |
| PgProductModel.SearchTextShape | src/models/productModel.ts:103-122 | every search text starts with the SELECT and ends with `;` |
| PgProductModel.SearchTextClauses | src/models/productModel.ts:108-120 | a filter puts the `"isavailable" = $1` WHERE clause in the text, a direction puts the ORDER BY clause there, and neither gives the plain SELECT |
| PgProductModel.SearchPlaceholdersMatchParams | src/models/productModel.ts:108-122 | a search text holds `$1` exactly when it has the filter parameter, and no other placeholder |
| PgProductModel.SelectAllPlaceholders | src/models/productModel.ts:16-20 | the listing without criteria has no placeholder, matching its empty parameter list |
| PgProductModel.SortDirectionIsInterpolated | src/models/productModel.ts:118-120 | the upper-cased sort direction appears in the SQL text itself, not as a parameter |
| PgProductModel.FirstRow | src/models/productModel.ts:25 | null exactly for an empty row set, else the first row |
| PgProductModel.ByIdStatement | src/models/productModel.ts:22-26 | the id is the only parameter and the text holds exactly the placeholder `$1` |
| PgProductController.SettleRows | src/controllers/productController.ts:42-58 | an empty row set gives 404, otherwise 200 with the first row; a driver failure is forwarded |
| PgProductController.ListProducts | src/controllers/productController.ts:12-40 | no sort and no `isavailable` selects everything; otherwise the search text and parameters of the decoded filter; a non-string sort is forwarded as a TypeError |
| PgProductController.CamelCaseParameterIgnored | src/controllers/productController.ts:18-20 | `?isAvailable=true` does not reach the search path of this stack |
| PgProductController.GetProduct | src/controllers/productController.ts:42-58 | a row gives 200 with the first row, no row gives 404, a driver failure is forwarded |
| PgProductController.StrictAndLooseDisagree | src/controllers/productController.ts:85 | `=== "true"` rejects ["true"], which the Prisma handler's `==` accepts; both reject the boolean true |
| PgProductController.StrictImpliesLoose | src/controllers/productController.ts:85 | strict equality implies loose equality, and on strings the two agree |
| PgProductController.NewProduct | src/controllers/productController.ts:77-86 | the object has the eight INSERT columns in order |
| PgProductController.InsertStatement | src/models/productModel.ts:55-64 | parameter `j` of the INSERT is the object's property of column `j` |
| PgProductController.InsertBindsInOrder | src/models/productModel.ts:55-64 | the INSERT parameters are exactly the object's values in insertion order |
| PgProductController.InsertColumnsDistinct | src/models/productModel.ts:55-64 | the eight INSERT columns are distinct |
| PgProductController.InsertPlaceholders | src/models/productModel.ts:31-53 | the INSERT text numbers its placeholders 1 … 8, one per column, in the order of its eight parameters |
| PgProductController.CreateProduct | src/controllers/productController.ts:60-96 | a returned row gives 201 with it, a driver failure is forwarded; an empty row set would give 201 with the message alone, since `res.json` drops an undefined `data` |
| PgProductController.PartlyChangeProduct | src/controllers/productController.ts:134-188 | no allowed field gives 400 and no statement; otherwise the statement is `updateProductPartly`'s for the normalised fields: each SET item names its field's column and takes the placeholder of that field's value, the id takes the last one, the placeholders are 1 … their number, and the rows answer 200/404/forwarded |
| PgProductController.AllowedKeysNoDollar | src/controllers/productController.ts:155-167 | allow-listed keys hold no `$`, so the SET clause adds no placeholder of its own |
| PgProductController.DeleteProduct | src/controllers/productController.ts:205-227 | a deleted row gives 200 with it, none gives 404, a failure is forwarded |
| ReviewModel.Guarded | src/models/review.model.ts:24-33 | a missing collection throws "reviews collection not found"; an invalid id yields null without a command; otherwise the command is sent |
| ReviewModel.ByIdCall | src/models/review.model.ts:58-66 | the by-id guards: throw without the collection, null for an invalid id, else the command |
| ReviewModel.ByProductCall | src/models/review.model.ts:95-118 | throw without the collection, `[]` for an invalid product id, else the product's reviews sorted on the key (1 for "asc", -1 otherwise), skipping `(page - 1) * limit`, limited to `limit` |
| ReviewModel.Direction | src/models/review.model.ts:107-109 | 1 exactly for "asc", otherwise -1 |
| ReviewModel.PagesTile | src/models/review.model.ts:106 | page 1 skips nothing and each page starts where the previous ended |
| ReviewModel.PageWindow | src/models/review.model.ts:106 | for page ≥ 1 the window starts at a non-negative offset and ends at `page * limit` |
| ReviewModel.PageZeroSkipsBackwards | src/models/review.model.ts:106 | page 0 or −1 gives a negative skip |
| ReviewModel.SearchCall | src/models/review.model.ts:176-210 | the filter has `$text` iff the search text is non-empty, `rating` iff it is a number in 1..5, `verifiedPurchase` iff given, a sort iff a field is given (1 for "asc", else -1) |
| ReviewModel.ApplyInc | src/models/review.model.ts:217 | `$inc` on a missing or integer field gives a document with the same keys plus that field, the field an integer, every other field unchanged; a value that is not a number is rejected; a number kept as sent or a parseFloat result is accepted, its sum not computed |
| ReviewModel.LikeAddsOne | src/models/review.model.ts:212-223 | a like raises `likes` by exactly one and changes nothing else |
| ReviewModel.TwoLikesAddTwo | src/models/review.model.ts:212-223 | two likes add two |
| ReviewModel.ReviewStats | src/models/review.model.ts:120-174 | the loop yields the total over groups, the five-bucket counts and the weighted average; no groups gives the all-zero statistics |
| ReviewModel.BucketsLookup | src/models/review.model.ts:149-165 | a rating has a bucket iff it is 1..5 or occurs in a group; an unseen 1..5 rating counts 0; a seen one counts its group's reviews |
| ReviewModel.BucketsSumToTotal | src/models/review.model.ts:149-165 | with ratings in 1..5 the five buckets sum to the total number of reviews |
| ReviewModel.WeightedSumBounds | src/models/review.model.ts:149-165 | the weighted sum lies between the total and five times the total |
| ReviewModel.AverageInRange | src/models/review.model.ts:167 | the average is 0 for no reviews and otherwise between 1 and 5 |
| ReviewController.SettleGuarded | src/controllers/review.controller.ts:29-45 | a guard throw is forwarded, null is 404 "Review not found", a document is 200 |
| ReviewController.ArrayOrEmpty | src/controllers/review.controller.ts:74-75 | `pros`/`cons` are always arrays, and a sent array is kept |
| ReviewController.LikesOf | src/controllers/review.controller.ts:77 | falsy likes default to 0; otherwise `parseInt(likes, 10)` |
| ReviewController.NewReview | src/controllers/review.controller.ts:68-78 | the document has the nine fields in order, array pros/cons, and `verifiedPurchase` true only for the boolean true |
| ReviewController.CreateDefaults | src/controllers/review.controller.ts:68-78 | missing optional fields default to empty arrays, false and 0 likes |
| ReviewController.VerifiedPurchaseNeedsBoolean | src/controllers/review.controller.ts:76 | the string "true" does not mark a verified purchase |
| ReviewController.NonNumericLikesIsNaN | src/controllers/review.controller.ts:77 | "many" likes is NaN, "" likes is 0 |
| ReviewController.InsertReview | src/models/review.model.ts:17-22 | the stored review is the document with `_id` in front; a missing collection throws |
| ReviewController.CreateReview | src/controllers/review.controller.ts:47-89 | an invalid productId or userId gives 400 with nothing inserted; otherwise 201 with the stored review or the failure forwarded |
| ReviewController.ConvertUpdate | src/controllers/review.controller.ts:105-119 | the converted body has the same keys, each value converted by its key's rule |
| ReviewController.ConvertedCases | src/controllers/review.controller.ts:105-119 | productId/userId become ObjectIds only when truthy and valid; rating/likes are parsed only when truthy |
| ReviewController.AllConverted | src/controllers/review.controller.ts:105-119 | after the four conversions every key holds its converted value |
| ReviewController.UnknownKeysForwarded | src/controllers/review.controller.ts:121-124 | any other key, `_id` included, goes to `$set` as sent |
| ReviewController.InvalidIdKeptAsSent | src/controllers/review.controller.ts:105-113 | a malformed productId or userId is stored as the string sent |
| ReviewController.FalsyRatingKeptAsSent | src/controllers/review.controller.ts:114-116 | a rating of 0 or null is stored unparsed; "4" is stored as 4 |
| ReviewController.PartlyChangeReview | src/controllers/review.controller.ts:91-140 | an empty body gives 400 and no command; without the collection the throw is forwarded; an invalid id gives 404; otherwise `$set` of exactly the converted body, answered 200/404/forwarded |
| ReviewController.GetReview | src/controllers/review.controller.ts:29-45 | the throw without the collection is forwarded, an invalid id or no document gives 404, a document gives 200 |
| ReviewController.DeleteReview | src/controllers/review.controller.ts:142-161 | the same table for the delete, with 200 "Review successfully deleted" |
| ReviewController.ReviewDetails | src/controllers/review.controller.ts:163-179 | the same table for the review with its product and user |
| ReviewController.LikeReview | src/controllers/review.controller.ts:263-283 | the same table for the `$inc` of one like, with 200 "Review liked" |
| ReviewController.AllReviews | src/controllers/review.controller.ts:16-27 | every review with 200, the throw without the collection or a failure forwarded |
| ReviewController.NumberOr | src/controllers/review.controller.ts:188-189 | a query number falls back when `parseInt` gives 0 or NaN, otherwise it is the parsed value |
| ReviewController.TextOr | src/controllers/review.controller.ts:190-191 | a falsy text falls back, a truthy one is kept |
| ReviewController.PagingDefaults | src/controllers/review.controller.ts:188-189 | no page and no limit give page 1 and limit 10 |
| ReviewController.GivenPageKept | src/controllers/review.controller.ts:188 | a page sent as a positive or a negative number is kept as it is |
| ReviewController.ZeroPageFallsBack | src/controllers/review.controller.ts:188 | page "0" falls back to 1 |
| ReviewController.ReviewsByProduct | src/controllers/review.controller.ts:181-204 | the listing uses the defaulted paging and sort; `[]` for an invalid id is answered 200 with an empty list |
| ReviewController.ReviewsByProductDefaults | src/controllers/review.controller.ts:188-191 | without parameters: the first ten reviews by descending rating |
| ReviewController.ReviewStatsForProduct | src/controllers/review.controller.ts:206-224 | an invalid product id gives 404; otherwise 200 with the total, the buckets and the average of the groups |
| ReviewController.StrictBoolean | src/controllers/review.controller.ts:236-241 | `verifiedPurchase` is true only for "true" and false only for "false" |
| ReviewController.OneOf | src/controllers/review.controller.ts:247-254 | the sort field or order is kept only when it is one of its two words |
| ReviewController.SearchParamsOf | src/controllers/review.controller.ts:232-254 | each search parameter is decoded only when given in its accepted form |
| ReviewController.SearchReviews | src/controllers/review.controller.ts:226-261 | the filter has text iff non-empty text is sent, a rating iff 1..5, the purchase flag as decoded, a sort iff the field is "rating" or "likes"; the text is `String(searchText)`, the rating `parseInt(rating, 10)`, and the sort that field, ascending only for `sortOrder` "asc"; rows give 200, a failure is forwarded |
| ReviewController.RatingZeroNotFiltered | src/models/review.model.ts:191-197 | rating "0" adds no rating filter |
| CartModel.Merged | src/models/shoppingCart.model.ts:35-56 | adding a product adds to an existing line's quantity or creates the line, and leaves every other line alone |
| CartModel.MergeTwice | src/models/shoppingCart.model.ts:35-56 | adding `a` then `b` equals adding `a + b` |
| CartModel.MergeThenRemove | src/models/shoppingCart.model.ts:97-111 | removing a freshly added line restores the cart |
| CartModel.MergeKeepsPositive | src/models/shoppingCart.model.ts:21-23 | with quantities at least 1, every quantity stays at least 1 |
| CartModel.MergeKeepsTables | src/models/shoppingCart.model.ts:35-56 | an add keeps every line pointing at an existing cart |
| CartModel.CartStore.constructor | src/models/shoppingCart.model.ts:4-14 | the initial empty database that the cart lookups read: no carts and no lines |
| CartModel.CartStore.GetOrCreateShoppingCart | src/models/shoppingCart.model.ts:4-14 | the user's existing cart, or a fresh id no other user holds; lines unchanged |
| CartModel.CartStore.AddProductToCart | src/models/shoppingCart.model.ts:16-57 | quantity below 1 throws and changes nothing; otherwise the user has a cart and its line gains the quantity; a user with a cart keeps the carts as they were, a user without one gets exactly one new cart whose id no other cart has |
| CartModel.CartStore.GetCart | src/models/shoppingCart.model.ts:59-71 | the user's cart with exactly its lines and quantities, or none |
| CartModel.CartStore.UpdateProductQuantity | src/models/shoppingCart.model.ts:73-95 | quantity below 1, a missing cart or a missing line fails and changes nothing; otherwise exactly that line is set |
| CartModel.CartStore.RemoveProductFromCart | src/models/shoppingCart.model.ts:97-111 | a missing cart or line fails and changes nothing; otherwise exactly that line is removed and returned |
| CartController.IdParam | src/controllers/shoppingCart.controller.ts:15-20 | an id is accepted iff `parseInt` gives neither 0 nor NaN, and it is the parsed value |
| CartController.QuantityParam | src/controllers/shoppingCart.controller.ts:17-20 | a quantity is accepted iff it parses to at least 1 |
| CartController.LineInputOf | src/controllers/shoppingCart.controller.ts:15-20 | the input is accepted iff both ids and the quantity are, and then holds their parsed values |
| CartController.ZeroQuantityRejected | src/tests/shoppingCart.test.ts:130-135 | a quantity of 0 is refused before the store is touched |
| CartController.QuantityParsing | src/controllers/shoppingCart.controller.ts:17 | "0x10" is 16 and "2.5" is 2 |
| CartController.NegativeIdAccepted | src/controllers/shoppingCart.controller.ts:19-20 | "-3" is accepted as an id |
| CartController.MissingLineIsNotFound | src/models/shoppingCart.model.ts:85-93 | the driver's P2025 error for a missing line reaches the client as 404 |
| CartController.AddProductToCart | src/controllers/shoppingCart.controller.ts:9-31 | bad input gives 400 and changes nothing; otherwise the store's merge, answered 201 with the line; the carts change only by a new cart, with a fresh id, for a user who had none |
| CartController.GetCart | src/controllers/shoppingCart.controller.ts:33-53 | a bad id gives 400, no cart 404, else 200 with the user's cart |
| CartController.UpdateProductQuantity | src/controllers/shoppingCart.controller.ts:55-80 | bad input gives 400 and changes nothing; no cart or no line is forwarded with the lines unchanged; otherwise exactly that line is set and returned with 200 |
| CartController.RemoveProductFromCart | src/controllers/shoppingCart.controller.ts:82-101 | bad ids give 400 and change nothing; no cart or no line is forwarded with the lines unchanged; otherwise exactly that line is removed with 200 |

## Left out

- Routing, the server, the database connection setup, the schemas, and the category and user modules are not part of this model.
- `parseFloat` and IEEE arithmetic are not modelled. A price stays the value that was sent, wrapped as `Float(v)`.
- Statistics averages are exact reals, so floating-point rounding is not modelled.
- Integers are unbounded. The 32-bit `Int` columns and JavaScript number precision for very large ids are not modelled.
- `parseInt` is modelled on ASCII digits, ASCII letters for hexadecimal, and the common ASCII and Unicode white space. Other Unicode white space is not.
- `toUpperCase` is modelled on ASCII letters only.
- `ObjectId.isValid` is a parameter (`IdCheck`). Its rules belong to the MongoDB driver.
- The Prisma, `pg` and MongoDB clients are function parameters, so no handler contract depends on their answer. The shopping cart store is the exception: it is a concrete class, and the cart contracts depend on its two tables. It has no product table and no user table, so its writes never fail. In the source, Prisma's `create` of a line for a product that does not exist, or of a cart for a user that does not exist, is rejected by the foreign key. `CartModel.CartStore.AddProductToCart` does not model that rejection and answers `Ok` for every quantity of at least 1. Transactions and concurrency are not modelled. In particular, the cart's find-or-create is not atomic in the source, and two concurrent requests could create two carts.
- MongoDB `$text` matching, sorting, `skip`/`limit` execution and the aggregation's `$group` are not modelled. The model records the command that is sent, not how the server evaluates it.
- ReviewModel.ApplyInc: for a number kept as sent (a PATCH with `likes: 0`) or a parseFloat result, the model answers `Untracked` and does not compute the sum, because those numbers are kept symbolic.
- ReviewModel.SearchCall leaves out the shape of the `$text` operator document. It states only whether it is present and which text it carries.
- The driver's `findOneAndUpdate`/`findOneAndDelete` return a document that the source reads as `result.value`. The model treats that value as the answer.
- Prisma's `update` and `delete` throw P2025 on a missing record rather than returning null. The model represents the answer for this case as `Threw`, with the driver's message wording as a constant. The tests mock the same rejection as `new Error("Record not found")`; `ProductController.DeleteMissingIs404` covers both.
- ProductModel.CreateData: `categoryId` is read with `parseInt` only when it is a string or a number. For other JavaScript values the result is NaN.
- CartModel.CartStore.AddProductToCart: succeeds for every quantity of at least 1. The model omits the foreign-key rejection of a line for a missing product or a cart for a missing user, because the store has no product or user table.
- CartModel.CartStore.GetCart leaves out the product records attached by Prisma's `include` (src/models/shoppingCart.model.ts:62-67), because the store has no product table. It states only the cart's id, its user, and its lines with their quantities.
- CartController.GetCart leaves out the product records attached by Prisma's `include`. It states only the cart's lines and quantities.
- `console.error` logging in the handlers is left out.
- PgProductModel.SearchStatement writes the WHERE clause with its single condition. `searchProducts` pushes at most one condition, so the `" AND "` join never appears in a text the source can build.
- The INSERT text of the `pg` stack is written on one line. Its placeholder list is built as `$1, $2, …, $8` from the same `Param` rendering the UPDATE uses. The line breaks and indentation of the source text are not kept, and they do not change the statement.

## Findings

| source | as written | input that shows it | evidently intended | confidence | as-written member | corrected member |
|---|---|---|---|---|---|---|
| src/middleware/errorHandler.ts:11-22 | after the 404 for a not-found message there is no `return`, so the code branch sends a second response | an error with message "Record not found" and no code (404, then 500) | a single 404 response | not executed | ErrorHandler.Responses, ErrorHandler.DoubleResponse | ErrorHandler.Respond |
| src/controllers/product.controller.ts:78-87 | the created object carries `category`, but `createProduct` reads `categoryId` and parses it with parseInt | any body with `categoryId: "3"`: the create data sent to Prisma carries `categoryId` NaN. The TypeScript compiler also rejects the literal, since `category` is not a property of `Product` and `categoryId` is required (src/models/product.model.ts:9) | the body's `categoryId` forwarded | not executed | ProductController.NewProductAsWritten, ProductController.CreateLosesCategory, ProductController.CreateProduct | ProductController.NewProduct, ProductController.CreateKeepsCategory, ProductController.CreateProductCorrected |

=== FILE: cart_controller.dfy ===
/**
 * The shopping-cart handlers: `parseInt` validation of the path and body
 * parameters in front of the cart operations.
 */
module CartController {
  import opened Wrappers
  import opened Js
  import opened Records
  import opened Http
  import opened CartModel
  import ErrorHandler

  const InvalidInput := "Invalid input"

  /** `parseInt(v)` for an id: `!id` rejects NaN and 0; a negative id passes. */
  function IdParam(v: JsValue): (r: Option<int>)
    ensures r.Some? <==> !IsFalsyNumber(ParseIntValue(v, Auto))
    ensures r.Some? ==> r.value != 0 && ParseIntValue(v, Auto) == Some(r.value)
  {
    match ParseIntValue(v, Auto)
    case None => None
    case Some(n) => if n == 0 then None else Some(n)
  }

  /** `parseInt(v)` for a quantity: `!quantity || quantity < 1` rejects NaN and everything below 1. */
  function QuantityParam(v: JsValue): (r: Option<int>)
    ensures r.Some? <==> ParseIntValue(v, Auto).Some? && ParseIntValue(v, Auto).value >= 1
    ensures r.Some? ==> r.value >= 1 && ParseIntValue(v, Auto) == Some(r.value)
  {
    match ParseIntValue(v, Auto)
    case None => None
    case Some(n) => if n == 0 || n < 1 then None else Some(n)
  }

  /** The three numbers a line operation needs. */
  datatype LineInput = LineInput(userId: int, productId: int, quantity: int)

  /** The validation shared by add and update: both ids must parse to non-zero numbers and the quantity to at least 1. */
  function LineInputOf(userId: JsValue, productId: JsValue, quantity: JsValue): (r: Option<LineInput>)
    ensures r.Some? <==> IdParam(userId).Some? && IdParam(productId).Some? && QuantityParam(quantity).Some?
    ensures r.Some? ==> r.value == LineInput(IdParam(userId).value, IdParam(productId).value, QuantityParam(quantity).value)
    ensures r.Some? ==> r.value.quantity >= 1
  {
    match (IdParam(userId), IdParam(productId), QuantityParam(quantity))
    case (Some(u), Some(p), Some(q)) => Some(LineInput(u, p, q))
    case _ => None
  }

  /** A quantity of "0", as in the update test, is invalid input. */
  lemma ZeroQuantityRejected(userId: JsValue, productId: JsValue)
    ensures LineInputOf(userId, productId, Str("0")).None?
    ensures LineInputOf(userId, productId, Num("0")).None?
  {
    ParseIntZero(Auto);
  }

  /** Without a radix `parseInt` reads "0x10" as sixteen, and "2.5" as two. */
  lemma QuantityParsing()
    ensures QuantityParam(Str("0x10")) == Some(16)
    ensures QuantityParam(Str("2.5")) == Some(2)
  {
    assert ParseInt("0x10", Auto) == Some(16) by {
      assert TrimStart("0x10") == "0x10";
      assert AfterSign("0x10") == "0x10";
      assert HasHexPrefix("0x10", Auto);
      assert "0x10"[2..] == "10";
      assert DigitPrefix("10", 16) == "10";
      assert DigitsValue("10", 16) == DigitsValue("1", 16) * 16 + 0;
      assert DigitsValue("1", 16) == 1;
    }
    assert ParseInt("2.5", Auto) == Some(2) by {
      assert TrimStart("2.5") == "2.5";
      assert AfterSign("2.5") == "2.5";
      assert DigitPrefix("2.5", 10) == "2";
      assert DigitsValue("2", 10) == 2;
    }
  }

  /** A negative user id passes validation. */
  lemma NegativeIdAccepted()
    ensures IdParam(Str("-3")) == Some(-3)
  {
    assert TrimStart("-3") == "-3";
    assert AfterSign("-3") == "3";
    assert DigitPrefix("3", 10) == "3";
    assert DigitsValue("3", 10) == 3;
  }

  /** A missing line is reported by the client with code P2025, which the error middleware answers with 404 "Record not found". */
  lemma MissingLineIsNotFound()
    ensures ErrorHandler.Respond(MissingLine).status == 404
    ensures ErrorHandler.Responses(MissingLine)[|ErrorHandler.Responses(MissingLine)| - 1]
            == ErrorHandler.ErrorReply(404, "Record not found", None)
  {
  }

  /** The parameters of an add, read from the body. */
  function AddInput(body: Body): Option<LineInput> {
    LineInputOf(Get(body, "userId"), Get(body, "productId"), Get(body, "quantity"))
  }

  /** `addProductToCartController`: 400 for invalid input, else the line merged by the model under 201. */
  method AddProductToCart(store: CartStore, body: Body) returns (out: Outcome<Line>)
    requires store.Valid()
    modifies store
    ensures store.Valid()
    ensures AddInput(body).None? ==> out == Send(400, Message(InvalidInput)) && unchanged(store)
    ensures AddInput(body).Some? ==> AddInput(body).value.userId in store.carts
    ensures AddInput(body).Some? && AddInput(body).value.userId in old(store.carts) ==> store.carts == old(store.carts)
    ensures AddInput(body).Some? && AddInput(body).value.userId !in old(store.carts) ==>
              var u := AddInput(body).value.userId;
              store.carts == old(store.carts)[u := store.carts[u]]
              && forall v :: v in old(store.carts) ==> old(store.carts)[v] != store.carts[u]
    ensures AddInput(body).Some? ==>
              var input := AddInput(body).value;
              var key := (input.productId, store.carts[input.userId]);
              store.lines == Merged(old(store.lines), key, input.quantity)
              && out == Send(201, MessageData("Product added to cart successfully", Line(key.0, key.1, store.lines[key])))
  {
    var input := AddInput(body);
    if input.None? {
      return Send(400, Message(InvalidInput));
    }
    var r := store.AddProductToCart(input.value.userId, input.value.productId, input.value.quantity);
    match r
    case Ok(line) => out := Send(201, MessageData("Product added to cart successfully", line));
    case Err(f) => out := Forward(f);
  }

  /** `getCartController`: 400 for an invalid user id, 404 without a cart, else the cart. */
  function GetCart(store: CartStore, userId: JsValue): (out: Outcome<CartView>)
    reads store
    ensures IdParam(userId).None? ==> out == Send(400, Message("Invalid user id"))
    ensures IdParam(userId).Some? && IdParam(userId).value !in store.carts ==> out == Send(404, Message("Cart not found"))
    ensures IdParam(userId).Some? && IdParam(userId).value in store.carts ==>
              out.Send? && out.status == 200 && out.payload == Data(store.GetCart(IdParam(userId).value).value)
  {
    match IdParam(userId)
    case None => Send(400, Message("Invalid user id"))
    case Some(u) =>
      match store.GetCart(u)
      case None => Send(404, Message("Cart not found"))
      case Some(cart) => Send(200, Data(cart))
  }

  /**
   * `updateProductQuantityController`: the ids come from the path and the
   * quantity from the body; a missing cart or line is passed to the error
   * middleware.
   */
  method UpdateProductQuantity(store: CartStore, userId: JsValue, productId: JsValue, body: Body) returns (out: Outcome<Line>)
    requires store.Valid()
    modifies store
    ensures store.Valid()
    ensures store.carts == old(store.carts)
    ensures var input := LineInputOf(userId, productId, Get(body, "quantity"));
            (input.None? ==> out == Send(400, Message(InvalidInput)) && unchanged(store))
            && (input.Some? && input.value.userId !in store.carts ==> out == Forward(PlainError(NoCart)) && store.lines == old(store.lines))
            && (input.Some? && input.value.userId in store.carts ==>
                  var key := (input.value.productId, store.carts[input.value.userId]);
                  (key !in old(store.lines) ==> out == Forward(MissingLine) && store.lines == old(store.lines))
                  && (key in old(store.lines) ==>
                        store.lines == old(store.lines)[key := input.value.quantity]
                        && out == Send(200, MessageData("Product quantity updated successfully",
                                                        Line(key.0, key.1, input.value.quantity)))))
  {
    var input := LineInputOf(userId, productId, Get(body, "quantity"));
    if input.None? {
      return Send(400, Message(InvalidInput));
    }
    var r := store.UpdateProductQuantity(input.value.userId, input.value.productId, input.value.quantity);
    match r
    case Ok(line) => out := Send(200, MessageData("Product quantity updated successfully", line));
    case Err(f) => out := Forward(f);
  }

  /** `removeProductFromCartController`: only the two ids are validated. */
  method RemoveProductFromCart(store: CartStore, userId: JsValue, productId: JsValue) returns (out: Outcome<Line>)
    requires store.Valid()
    modifies store
    ensures store.Valid()
    ensures store.carts == old(store.carts)
    ensures IdParam(userId).None? || IdParam(productId).None? ==>
              out == Send(400, Message(InvalidInput)) && unchanged(store)
    ensures IdParam(userId).Some? && IdParam(productId).Some? ==>
              var u, p := IdParam(userId).value, IdParam(productId).value;
              (u !in store.carts ==> out == Forward(PlainError(NoCart)) && store.lines == old(store.lines))
              && (u in store.carts && (p, store.carts[u]) !in old(store.lines) ==>
                    out == Forward(MissingLine) && store.lines == old(store.lines))
              && (u in store.carts && (p, store.carts[u]) in old(store.lines) ==>
                    store.lines == old(store.lines) - {(p, store.carts[u])}
                    && out == Send(200, Message("Product removed from cart successfully")))
  {
    var u, p := IdParam(userId), IdParam(productId);
    if u.None? || p.None? {
      return Send(400, Message(InvalidInput));
    }
    var r := store.RemoveProductFromCart(u.value, p.value);
    match r
    case Ok(_) => out := Send(200, Message("Product removed from cart successfully"));
    case Err(f) => out := Forward(f);
  }
}

=== FILE: cart_model.dfy ===
/**
 * The shopping-cart tables: one cart per user and one line per
 * (product, cart) pair holding a quantity. The three operations find or
 * create the cart, then merge, overwrite or delete one line.
 */
module CartModel {
  import opened Wrappers
  import opened Js
  import opened Http

  /** The composite key `productId_shoppingCartId` of a cart line. */
  type LineKey = (int, nat)

  /** A line of the `productsInShoppingCart` table as the client returns it. */
  datatype Line = Line(productId: int, shoppingCartId: nat, quantity: int)

  /** A user's cart with its lines, product id to quantity. */
  datatype CartView = CartView(id: nat, userId: int, products: map<int, int>)

  const QuantityTooSmall := "Quantity must be at least 1"
  const NoCart := "Shopping cart not found for user"

  /** The client's rejection of an update or delete whose line does not exist (code P2025). */
  const MissingLine := Failure(MissingLineMessage, Str("P2025"), Undefined, "PrismaClientKnownRequestError: " + MissingLineMessage)

  const MissingLineMessage := "An operation failed because it depends on one or more records that were required but not found."

  /** The lines after `addProductToCart`: the quantity is added to an existing line, or a new line holds it. */
  function Merged(lines: map<LineKey, int>, key: LineKey, quantity: int): (r: map<LineKey, int>)
    ensures key in r && r[key] == (if key in lines then lines[key] + quantity else quantity)
    ensures forall k :: k != key ==> (k in r <==> k in lines) && (k in lines ==> r[k] == lines[k])
  {
    lines[key := if key in lines then lines[key] + quantity else quantity]
  }

  /** Adding `a` then `b` to one line is adding `a + b`: two adds accumulate. */
  lemma MergeTwice(lines: map<LineKey, int>, key: LineKey, a: int, b: int)
    ensures Merged(Merged(lines, key, a), key, b) == Merged(lines, key, a + b)
  {
    var l1, l2 := Merged(Merged(lines, key, a), key, b), Merged(lines, key, a + b);
    assert l1.Keys == l2.Keys;
  }

  /** A new line followed by its removal leaves the lines as they were. */
  lemma MergeThenRemove(lines: map<LineKey, int>, key: LineKey, quantity: int)
    requires key !in lines
    ensures Merged(lines, key, quantity) - {key} == lines
  {
    assert (Merged(lines, key, quantity) - {key}).Keys == lines.Keys;
  }

  /** Quantities of at least 1 stay at least 1 under a merge of at least 1. */
  lemma MergeKeepsPositive(lines: map<LineKey, int>, key: LineKey, quantity: int)
    requires forall k :: k in lines ==> lines[k] >= 1
    requires quantity >= 1
    ensures forall k :: k in Merged(lines, key, quantity) ==> Merged(lines, key, quantity)[k] >= 1
  {
  }

  /** Some user owns the cart `id`. */
  ghost predicate OwnsCart(carts: map<int, nat>, id: nat) {
    exists u :: u in carts && carts[u] == id
  }

  /** Ids are below `nextId` and unique per user, every line belongs to a cart, and every quantity is at least 1. */
  ghost predicate Tables(carts: map<int, nat>, lines: map<LineKey, int>, nextId: nat) {
    (forall u :: u in carts ==> carts[u] < nextId)
    && (forall u, v :: u in carts && v in carts && carts[u] == carts[v] ==> u == v)
    && (forall k :: k in lines ==> OwnsCart(carts, k.1) && lines[k] >= 1)
  }

  /** Merging a positive quantity into a line of an existing cart keeps the tables consistent. */
  lemma MergeKeepsTables(carts: map<int, nat>, lines: map<LineKey, int>, nextId: nat, userId: int, productId: int, quantity: int)
    requires Tables(carts, lines, nextId) && userId in carts && quantity >= 1
    ensures Tables(carts, Merged(lines, (productId, carts[userId]), quantity), nextId)
  {
    assert OwnsCart(carts, carts[userId]);
  }

  /**
   * The two tables. `carts` maps a user to the id of the cart they own,
   * `lines` maps a (product, cart) pair to its quantity, and `nextId` is the
   * id the next new cart receives.
   */
  class CartStore {
    var carts: map<int, nat>
    var lines: map<LineKey, int>
    var nextId: nat

    /** Ids are below `nextId` and unique per user, every line belongs to a cart, and every quantity is at least 1. */
    ghost predicate Valid()
      reads this
    {
      Tables(carts, lines, nextId)
    }

    constructor ()
      ensures Valid()
      ensures carts == map[] && lines == map[]
    {
      carts, lines, nextId := map[], map[], 0;
    }

    /** The user's cart: the one the lookup finds, or a new one with a fresh id. */
    method GetOrCreateShoppingCart(userId: int) returns (cartId: nat)
      requires Valid()
      modifies this
      ensures Valid()
      ensures userId in carts && carts[userId] == cartId
      ensures userId in old(carts) ==> carts == old(carts)
      ensures userId !in old(carts) ==> carts == old(carts)[userId := cartId] && forall u :: u in old(carts) ==> old(carts)[u] != cartId
      ensures lines == old(lines)
    {
      if userId in carts {
        cartId := carts[userId];
      } else {
        cartId := nextId;
        var before := carts;
        carts := carts[userId := cartId];
        nextId := nextId + 1;
        forall k | k in lines ensures OwnsCart(carts, k.1) {
          var u :| u in before && before[u] == k.1;
          assert carts[u] == k.1;
        }
      }
    }

    /**
     * `addProductToCart`: a quantity below 1 throws before any storage
     * access; otherwise the user's cart is found or created and the
     * quantity is merged into the (product, cart) line.
     */
    method AddProductToCart(userId: int, productId: int, quantity: int) returns (r: Result<Line, Failure>)
      requires Valid()
      modifies this
      ensures Valid()
      ensures quantity < 1 ==> r == Err(PlainError(QuantityTooSmall)) && unchanged(this)
      ensures quantity >= 1 ==> userId in carts && r.Ok?
      ensures quantity >= 1 && userId in old(carts) ==> carts == old(carts)
      ensures quantity >= 1 && userId !in old(carts) ==>
                carts == old(carts)[userId := carts[userId]]
                && forall u :: u in old(carts) ==> old(carts)[u] != carts[userId]
      ensures quantity >= 1 ==>
                var key := (productId, carts[userId]);
                lines == Merged(old(lines), key, quantity)
                && r.value == Line(productId, carts[userId], lines[key])
    {
      if quantity < 1 {
        return Err(PlainError(QuantityTooSmall));
      }
      var cartId := GetOrCreateShoppingCart(userId);
      var key := (productId, cartId);
      ghost var before := lines;
      if key in lines {
        var newQuantity := lines[key] + quantity;
        lines := lines[key := newQuantity];
        r := Ok(Line(productId, cartId, newQuantity));
      } else {
        lines := lines[key := quantity];
        r := Ok(Line(productId, cartId, quantity));
      }
      assert lines == Merged(before, key, quantity);
      MergeKeepsTables(carts, before, nextId, userId, productId, quantity);
    }

    /** `getCart`: the user's cart with its lines, or nothing. */
    function GetCart(userId: int): (r: Option<CartView>)
      reads this
      ensures r.Some? <==> userId in carts
      ensures r.Some? ==> r.value.id == carts[userId] && r.value.userId == userId
      ensures r.Some? ==> forall p :: p in r.value.products <==> (p, carts[userId]) in lines
      ensures r.Some? ==> forall p :: p in r.value.products ==> r.value.products[p] == lines[(p, carts[userId])]
    {
      if userId in carts then
        var id := carts[userId];
        Some(CartView(id, userId, map k | k in lines && k.1 == id :: k.0 := lines[k]))
      else None
    }

    /**
     * `updateProductQuantity`: the quantity check, then the cart lookup, then
     * the line's quantity is replaced; a missing line is the client's P2025.
     */
    method UpdateProductQuantity(userId: int, productId: int, quantity: int) returns (r: Result<Line, Failure>)
      requires Valid()
      modifies this
      ensures Valid()
      ensures carts == old(carts)
      ensures quantity < 1 ==> r == Err(PlainError(QuantityTooSmall))
      ensures quantity >= 1 && userId !in carts ==> r == Err(PlainError(NoCart))
      ensures quantity >= 1 && userId in carts && (productId, carts[userId]) !in old(lines) ==> r == Err(MissingLine)
      ensures r.Err? ==> lines == old(lines)
      ensures r.Ok? <==> quantity >= 1 && userId in carts && (productId, carts[userId]) in old(lines)
      ensures r.Ok? ==> lines == old(lines)[(productId, carts[userId]) := quantity]
                        && r.value == Line(productId, carts[userId], quantity)
    {
      if quantity < 1 {
        return Err(PlainError(QuantityTooSmall));
      }
      if userId !in carts {
        return Err(PlainError(NoCart));
      }
      var key := (productId, carts[userId]);
      if key !in lines {
        return Err(MissingLine);
      }
      lines := lines[key := quantity];
      r := Ok(Line(productId, key.1, quantity));
    }

    /** `removeProductFromCart`: the cart lookup, then the (product, cart) line is deleted and returned. */
    method RemoveProductFromCart(userId: int, productId: int) returns (r: Result<Line, Failure>)
      requires Valid()
      modifies this
      ensures Valid()
      ensures carts == old(carts)
      ensures userId !in carts ==> r == Err(PlainError(NoCart))
      ensures userId in carts && (productId, carts[userId]) !in old(lines) ==> r == Err(MissingLine)
      ensures r.Err? ==> lines == old(lines)
      ensures r.Ok? <==> userId in carts && (productId, carts[userId]) in old(lines)
      ensures r.Ok? ==> lines == old(lines) - {(productId, carts[userId])}
                        && r.value == Line(productId, carts[userId], old(lines)[(productId, carts[userId])])
    {
      if userId !in carts {
        return Err(PlainError(NoCart));
      }
      var key := (productId, carts[userId]);
      if key !in lines {
        return Err(MissingLine);
      }
      r := Ok(Line(productId, key.1, lines[key]));
      lines := lines - {key};
    }
  }
}

=== FILE: error_handler.dfy ===
/**
 * The central error middleware: it turns a failure that a handler passed to
 * `next` into an HTTP status and a JSON body, by a substring test on the
 * message and by the vendor code (pg's SQLSTATE "23505", "23503", "23502",
 * Prisma's "P2025").
 */
module ErrorHandler {
  import opened Wrappers
  import opened Js
  import opened Http

  /** One response the middleware sends: status, `message`, and `detail` when it attaches one. */
  datatype ErrorReply = ErrorReply(status: nat, message: string, detail: Option<JsValue>)

  predicate IsSqlCode(code: JsValue) {
    code == Str("23505") || code == Str("23503") || code == Str("23502")
  }

  /** The guard of the first branch: a non-empty message mentioning "Record not found" or "Not found". */
  predicate MentionsNotFound(err: Failure) {
    err.message != "" && (Includes(err.message, "Record not found") || Includes(err.message, "Not found"))
  }

  /** The second branch, on `err.code`; it is reached whatever the first branch did. */
  function CodeReply(err: Failure): ErrorReply {
    if !Truthy(err.code) then ErrorReply(500, "Internal server error", None)
    else if err.code == Str("23505") then ErrorReply(409, "Duplicate value error.", Some(err.detail))
    else if err.code == Str("23503") then ErrorReply(400, "Foreign key constraint violation.", Some(err.detail))
    else if err.code == Str("23502") then ErrorReply(400, "Null value error; a required field is missing.", Some(err.detail))
    else if err.code == Str("P2025") then ErrorReply(404, "Record not found", None)
    else ErrorReply(500, "Error: " + err.text, None)
  }

  /**
   * `middlewareForError` as written: the responses it sends, in order. The
   * not-found branch does not return, so after it the code branch sends a
   * second response; only the first reaches the client.
   */
  function Responses(err: Failure): (rs: seq<ErrorReply>)
    ensures |rs| == (if MentionsNotFound(err) then 2 else 1)
    ensures MentionsNotFound(err) ==> rs[0] == ErrorReply(404, err.message, None)
    ensures rs[|rs| - 1] == CodeReply(err)
  {
    (if MentionsNotFound(err) then [ErrorReply(404, err.message, None)] else []) + [CodeReply(err)]
  }

  /**
   * The middleware with the missing `return` after the not-found response:
   * exactly one response, and it is the one the client receives from the
   * code as written.
   */
  function Respond(err: Failure): (r: ErrorReply)
    ensures r == Responses(err)[0]
    ensures r.status in {400, 404, 409, 500}
    ensures r.detail.Some? <==> !MentionsNotFound(err) && IsSqlCode(err.code)
    ensures r.status == 404 <==> MentionsNotFound(err) || err.code == Str("P2025")
    ensures r.status == 409 <==> !MentionsNotFound(err) && err.code == Str("23505")
  {
    if MentionsNotFound(err) then ErrorReply(404, err.message, None) else CodeReply(err)
  }

  /** Every response of the middleware is a client or server error, and `detail` comes only with the three SQL codes. */
  lemma ResponsesAreErrors(err: Failure)
    ensures forall r :: r in Responses(err) ==> r.status in {400, 404, 409, 500}
    ensures forall r :: r in Responses(err) && r.detail.Some? ==> IsSqlCode(err.code)
    ensures IsSqlCode(err.code) ==> Responses(err)[|Responses(err)| - 1].detail == Some(err.detail)
  {
  }

  /** Two responses for one error: an error whose message says "Not found" and that carries a pg code. */
  lemma DoubleResponse()
    ensures Responses(Failure("Not found", Str("23505"), Str("Key (email) already exists."), "error: Not found"))
            == [ErrorReply(404, "Not found", None),
                ErrorReply(409, "Duplicate value error.", Some(Str("Key (email) already exists.")))]
  {
    var err := Failure("Not found", Str("23505"), Str("Key (email) already exists."), "error: Not found");
    IncludesAt(err.message, "Not found", 0);
  }

  /** Even without a code the not-found branch is followed by a 500: `new Error("Record not found")` from a delete. */
  lemma RecordNotFoundThenServerError()
    ensures Responses(PlainError("Record not found"))
            == [ErrorReply(404, "Record not found", None), ErrorReply(500, "Internal server error", None)]
    ensures Respond(PlainError("Record not found")).status == 404
  {
    IncludesAt("Record not found", "Record not found", 0);
  }

  /** A plain error whose message has neither an "R" nor an "N" mentions neither phrase: one 500 response. */
  lemma WithoutCapitalsIsServerError(message: string)
    requires 'R' !in message && 'N' !in message
    ensures Responses(PlainError(message)) == [ErrorReply(500, "Internal server error", None)]
  {
    IncludesNeedsFirstChar(message, "Record not found");
    IncludesNeedsFirstChar(message, "Not found");
  }

  /** The cart model's "Shopping cart not found for user" matches neither phrase (the case differs): it becomes a 500. */
  lemma MissingCartIsServerError()
    ensures Responses(PlainError("Shopping cart not found for user"))
            == [ErrorReply(500, "Internal server error", None)]
  {
    NoUpperR("Shopping cart not found for user");
    NoUpperN("Shopping cart not found for user");
    WithoutCapitalsIsServerError("Shopping cart not found for user");
  }

  lemma NoUpperR(m: string)
    requires m == "Shopping cart not found for user"
    ensures 'R' !in m
  {
  }

  lemma NoUpperN(m: string)
    requires m == "Shopping cart not found for user"
    ensures 'N' !in m
  {
  }

  /** A MongoDB duplicate-key error carries the number 11000, which matches no string code. */
  lemma NumericCodeIsServerError(message: string, text: string)
    requires !Includes(message, "Record not found") && !Includes(message, "Not found")
    ensures Responses(Failure(message, Num("11000"), Undefined, text))
            == [ErrorReply(500, "Error: " + text, None)]
  {
  }
}

=== FILE: http.dfy ===
/**
 * What a handler sees of the outside world: failures it may receive or throw,
 * a storage client's answer, and the response it sends.
 */
module Http {
  import opened Wrappers
  import opened Js

  /**
   * A thrown error as the error middleware reads it: `message`, `code`
   * (a string for pg and Prisma errors, a number for MongoDB errors,
   * `undefined` for a plain `Error`), `detail`, and `text`, its rendering by
   * a template literal.
   */
  datatype Failure = Failure(message: string, code: JsValue, detail: JsValue, text: string)

  /** `new Error(message)`: no code and no detail; it renders as "Error: " followed by the message. */
  function PlainError(message: string): (e: Failure)
    ensures e.message == message && e.code == Undefined && e.detail == Undefined
  {
    Failure(message, Undefined, Undefined, "Error: " + message)
  }

  /** The answer of one storage call: a record, nothing (`null`), or a rejection. */
  datatype Answer<T> = Found(record: T) | Absent | Threw(failure: Failure)

  /** The JSON body of a response. */
  datatype Payload<T> = Message(text: string) | MessageData(text: string, data: T) | Data(data: T)

  /** What a handler does with a request: send a response, or pass a failure to `next`. */
  datatype Outcome<T> = Send(status: nat, payload: Payload<T>) | Forward(failure: Failure)
}

=== FILE: js.dfy ===
/**
 * The JavaScript values that reach the handlers (JSON request bodies and
 * Express query strings) and the built-in conversions the handlers apply to
 * them: `String(v)`, truthiness, `==` against a boolean word, `===`, and
 * `parseInt` with and without an explicit radix of 10.
 */
module Js {
  import opened Wrappers

  /**
   * A value read from a request. `Num` carries the number as JavaScript
   * renders it with `String(n)` ("22.99", "0", "NaN", "1e+21"); arithmetic on
   * it is never needed, because the handlers only stringify, test or compare it.
   */
  datatype JsValue =
    | Undefined
    | Null
    | Str(s: string)
    | Num(text: string)
    | Bool(b: bool)
    | Arr(items: seq<JsValue>)

  /** `String(v)`; an array is joined with "," and its `null`/`undefined` elements become "". */
  function ToJsString(v: JsValue): string
    decreases v
  {
    match v
    case Undefined => "undefined"
    case Null => "null"
    case Str(s) => s
    case Num(text) => text
    case Bool(b) => if b then "true" else "false"
    case Arr(items) => JoinElements(items)
  }

  function JoinElements(items: seq<JsValue>): string
    decreases items
  {
    if items == [] then ""
    else
      var head := if items[0].Undefined? || items[0].Null? then "" else ToJsString(items[0]);
      if |items| == 1 then head else head + "," + JoinElements(items[1..])
  }

  /** JavaScript truthiness: `undefined`, `null`, "", 0, NaN and `false` are falsy; every array is truthy. */
  predicate Truthy(v: JsValue) {
    match v
    case Undefined => false
    case Null => false
    case Str(s) => s != ""
    case Num(text) => text != "0" && text != "NaN"
    case Bool(b) => b
    case Arr(_) => true
  }

  predicate IsBooleanWord(w: string) {
    w == "true" || w == "false"
  }

  /**
   * `v == w` (abstract equality) for the words "true" and "false". No number
   * equals them (they convert to NaN), so neither does a boolean, `null` or
   * `undefined`; a string compares by content and an array by its `String()`.
   */
  predicate LooseEqualsWord(v: JsValue, w: string)
    requires IsBooleanWord(w)
  {
    match v
    case Str(s) => s == w
    case Arr(_) => ToJsString(v) == w
    case _ => false
  }

  /** `s.includes(sub)`. */
  predicate Includes(s: string, sub: string)
    decreases |s|
  {
    (|sub| <= |s| && s[..|sub|] == sub) || (s != [] && Includes(s[1..], sub))
  }

  /** A string without the first character of `sub` does not include `sub`. */
  lemma {:induction false} IncludesNeedsFirstChar(s: string, sub: string)
    requires sub != [] && sub[0] !in s
    ensures !Includes(s, sub)
    decreases |s|
  {
    if s != [] {
      assert s[0] != sub[0];
      assert sub[0] !in s[1..];
      IncludesNeedsFirstChar(s[1..], sub);
    }
  }

  lemma IncludesAt(s: string, sub: string, i: nat)
    requires i + |sub| <= |s| && s[i..i + |sub|] == sub
    ensures Includes(s, sub)
    decreases i
  {
    if i > 0 {
      assert s[1..][i - 1..i - 1 + |sub|] == s[i..i + |sub|];
      IncludesAt(s[1..], sub, i - 1);
    }
  }

  /** A string includes whatever stands in its middle. */
  lemma IncludesMiddle(a: string, b: string, c: string)
    ensures Includes(a + b + c, b)
  {
    var t := a + b + c;
    assert t[|a|..|a| + |b|] == b;
    IncludesAt(t, b, |a|);
  }

  // ---------------------------------------------------------------- parseInt

  /** The characters `parseInt` skips before the sign (the Unicode space separators other than U+00A0 are not modelled). */
  predicate IsWhiteSpace(c: char) {
    c == ' ' || c == '\t' || c == '\n' || c == '\r' || c == '\U{000B}' || c == '\U{000C}'
    || c == '\U{00A0}' || c == '\U{FEFF}' || c == '\U{2028}' || c == '\U{2029}'
  }

  function TrimStart(s: string): (t: string)
  {
    if s != [] && IsWhiteSpace(s[0]) then TrimStart(s[1..]) else s
  }

  /** `parseInt(s)` detects a "0x" prefix and reads hexadecimal; `parseInt(s, 10)` never does. */
  datatype Radix = Auto | Decimal

  predicate IsDigitIn(c: char, base: nat) {
    ('0' <= c <= '9') || (base == 16 && (('a' <= c <= 'f') || ('A' <= c <= 'F')))
  }

  function DigitValue(c: char): nat {
    if '0' <= c <= '9' then c as nat - '0' as nat
    else if 'a' <= c <= 'f' then c as nat - 'a' as nat + 10
    else if 'A' <= c <= 'F' then c as nat - 'A' as nat + 10
    else 0
  }

  /** The longest prefix of `s` made of digits of `base`. */
  function DigitPrefix(s: string, base: nat): (ds: string)
    ensures |ds| <= |s| && ds == s[..|ds|]
    ensures forall i :: 0 <= i < |ds| ==> IsDigitIn(ds[i], base)
    ensures |ds| == |s| || !IsDigitIn(s[|ds|], base)
  {
    if s != [] && IsDigitIn(s[0], base) then [s[0]] + DigitPrefix(s[1..], base) else []
  }

  /** The value of a digit string, most significant digit first. */
  function DigitsValue(ds: string, base: nat): nat {
    if ds == [] then 0 else DigitsValue(ds[..|ds| - 1], base) * base + DigitValue(ds[|ds| - 1])
  }

  /**
   * `parseInt(s)` (radix `Auto`) or `parseInt(s, 10)` (radix `Decimal`) on a
   * string: skip leading white space, take one optional sign, then (radix
   * `Auto` only) a "0x"/"0X" prefix, then the longest run of digits. `None`
   * is NaN: no digit at all. Text after the digits is ignored.
   */
  function ParseInt(s: string, radix: Radix): Option<int> {
    var t := TrimStart(s);
    WithSign(t != [] && t[0] == '-', ParseUnsigned(AfterSign(t), radix))
  }

  function WithSign(negative: bool, m: Option<nat>): Option<int> {
    match m
    case None => None
    case Some(k) => if negative then Some(0 - k) else Some(k)
  }

  /** Drops one leading "-" or "+". */
  function AfterSign(t: string): string {
    if t != [] && (t[0] == '-' || t[0] == '+') then t[1..] else t
  }

  predicate HasHexPrefix(u: string, radix: Radix) {
    radix == Auto && |u| >= 2 && u[0] == '0' && (u[1] == 'x' || u[1] == 'X')
  }

  /** The unsigned part of `parseInt`: an optional "0x" prefix, then the digits. */
  function ParseUnsigned(u: string, radix: Radix): Option<nat> {
    var hex := HasHexPrefix(u, radix);
    var base := if hex then 16 else 10;
    var ds := DigitPrefix(if hex then u[2..] else u, base);
    if ds == [] then None else Some(DigitsValue(ds, base))
  }

  /** `parseInt(v)` / `parseInt(v, 10)` on any value: the value is first converted with `String(v)`. */
  function ParseIntValue(v: JsValue, radix: Radix): Option<int> {
    ParseInt(ToJsString(v), radix)
  }

  /** `!n` for the result of `parseInt`: NaN and 0 are falsy. */
  predicate IsFalsyNumber(n: Option<int>) {
    n == None || n == Some(0)
  }

  /** Decimal rendering of a natural number, as `String(n)` and template literals produce it. */
  function NatToString(n: nat): (s: string)
    ensures s != [] && forall i :: 0 <= i < |s| ==> '0' <= s[i] <= '9'
    ensures s[0] == '0' ==> n == 0
  {
    var d := ['0' + (n % 10) as char];
    if n < 10 then d else NatToString(n / 10) + d
  }

  lemma {:induction false} NatToStringValue(n: nat)
    ensures DigitsValue(NatToString(n), 10) == n
  {
    var s := NatToString(n);
    if n >= 10 {
      NatToStringValue(n / 10);
      assert s[..|s| - 1] == NatToString(n / 10);
    }
  }

  lemma {:induction false} DigitPrefixOfDigits(ds: string, rest: string, base: nat)
    requires forall i :: 0 <= i < |ds| ==> IsDigitIn(ds[i], base)
    requires rest == [] || !IsDigitIn(rest[0], base)
    ensures DigitPrefix(ds + rest, base) == ds
  {
    if ds != [] {
      assert (ds + rest)[1..] == ds[1..] + rest;
      DigitPrefixOfDigits(ds[1..], rest, base);
    } else {
      assert ds + rest == rest;
    }
  }

  /**
   * `parseInt` reads back what `String(n)` wrote, with or without a minus
   * sign and whatever non-digit text follows; after a bare "0" an "x" would
   * start a hexadecimal prefix under radix `Auto`, so it is excluded.
   */
  lemma ParseIntReadsNatToString(n: nat, rest: string, radix: Radix)
    requires rest == [] || (!IsDigitIn(rest[0], 10) && rest[0] != 'x' && rest[0] != 'X')
    ensures ParseInt(NatToString(n) + rest, radix) == Some(n)
    ensures ParseInt("-" + NatToString(n) + rest, radix) == Some(0 - n)
  {
    var u := NatToString(n) + rest;
    ParseUnsignedReadsNatToString(n, rest, radix);
    SignlessStart(u, NatToString(n), radix);
    NegatedStart(u, radix);
    Prepend("-", NatToString(n), rest);
  }

  lemma Prepend(a: string, b: string, c: string)
    ensures a + (b + c) == a + b + c
  {
  }

  /** `parseInt(String(n))` and `parseInt("-" + String(n))` give back `n` and its negation. */
  lemma ParseIntReadsNat(n: nat, radix: Radix)
    ensures ParseInt(NatToString(n), radix) == Some(n)
    ensures ParseInt("-" + NatToString(n), radix) == Some(0 - n)
  {
    var s := NatToString(n);
    ParseIntReadsNatToString(n, "", radix);
    assert s + "" == s;
    assert "-" + s + "" == "-" + s;
  }

  /** `parseInt("0")` is 0, with or without a radix. */
  lemma ParseIntZero(radix: Radix)
    ensures ParseInt("0", radix) == Some(0)
  {
    ParseIntReadsNat(0, radix);
    assert NatToString(0) == "0";
  }

  lemma NegatedStart(u: string, radix: Radix)
    requires TrimStart(u) == u && AfterSign(u) == u
    ensures ParseInt("-" + u, radix) == WithSign(true, ParseUnsigned(u, radix))
  {
    var m := "-" + u;
    assert m[1..] == u;
    assert TrimStart(m) == m;
  }

  lemma SignlessStart(u: string, s: string, radix: Radix)
    requires s != [] && '0' <= s[0] <= '9' && |s| <= |u| && u[..|s|] == s
    ensures TrimStart(u) == u && AfterSign(u) == u
    ensures ParseInt(u, radix) == WithSign(false, ParseUnsigned(u, radix))
  {
    assert u[0] == s[0];
  }

  lemma ParseUnsignedReadsNatToString(n: nat, rest: string, radix: Radix)
    requires rest == [] || (!IsDigitIn(rest[0], 10) && rest[0] != 'x' && rest[0] != 'X')
    ensures ParseUnsigned(NatToString(n) + rest, radix) == Some(n)
  {
    var s := NatToString(n);
    var u := s + rest;
    NatToStringValue(n);
    DigitPrefixOfDigits(s, rest, 10);
  }

  /** Leading white space never changes what `parseInt` reads. */
  lemma {:induction false} ParseIntSkipsWhiteSpace(ws: string, s: string, radix: Radix)
    requires forall i :: 0 <= i < |ws| ==> IsWhiteSpace(ws[i])
    ensures ParseInt(ws + s, radix) == ParseInt(s, radix)
  {
    TrimStartSkips(ws, s);
  }

  lemma {:induction false} TrimStartSkips(ws: string, s: string)
    requires forall i :: 0 <= i < |ws| ==> IsWhiteSpace(ws[i])
    ensures TrimStart(ws + s) == TrimStart(s)
  {
    if ws != [] {
      assert (ws + s)[1..] == ws[1..] + s;
      TrimStartSkips(ws[1..], s);
    } else {
      assert ws + s == s;
    }
  }

  // ------------------------------------------------------------- upper case

  function UpperChar(c: char): char {
    if 'a' <= c <= 'z' then (c as int - 32) as char else c
  }

  /** `s.toUpperCase()` on ASCII letters; other characters are kept. */
  function ToUpperAscii(s: string): (r: string)
    ensures |r| == |s|
    ensures forall i :: 0 <= i < |s| ==> r[i] == UpperChar(s[i])
  {
    if s == [] then [] else [UpperChar(s[0])] + ToUpperAscii(s[1..])
  }
}

=== FILE: pg_product_controller.dfy ===
/**
 * The `pg`-backed product handlers. They differ from the Prisma ones in the
 * name of the availability query parameter (`isavailable`), in the strict
 * comparison on create, and in reading "not found" from an empty row set.
 */
module PgProductController {
  import opened Wrappers
  import opened Js
  import opened Records
  import opened Http
  import opened ProductRequest
  import opened PgProductModel

  /** `query(text, ...params)`: the rows, or the rejection of the driver. */
  type Database = SqlCommand -> Result<seq<Row>, Failure>

  /** The response for an optional row: 200 with `ok`, 404 with `missing`. */
  function SettleRows(answer: Result<seq<Row>, Failure>, ok: Row -> Payload<Row>, missing: string): (out: Outcome<Row>)
    ensures answer.Err? <==> out.Forward?
    ensures answer.Ok? ==> (out.status == 404 <==> answer.value == [])
    ensures answer.Ok? && answer.value != [] ==> out == Send(200, ok(answer.value[0]))
    ensures answer.Ok? && answer.value == [] ==> out == Send(404, Message(missing))
  {
    match answer
    case Err(f) => Forward(f)
    case Ok(rows) =>
      match FirstRow(rows)
      case Some(r) => Send(200, ok(r))
      case None => Send(404, Message(missing))
  }

  /**
   * `getAllProductsController`: the search path is taken for a truthy
   * `sortByPrice` or a present `isavailable`; "true"/"false" add the
   * condition, any other value leaves it out.
   */
  method ListProducts(query: Body, db: Database) returns (cmd: Option<SqlCommand>, out: Outcome<seq<Row>>)
    ensures var sortByPrice := Get(query, "sortByPrice");
            !TakesSearchPath(sortByPrice, Get(query, "isavailable")) ==> cmd == Some(SelectAll)
    ensures var sortByPrice, filter := Get(query, "sortByPrice"), AvailabilityFilter(Get(query, "isavailable"));
            TakesSearchPath(sortByPrice, Get(query, "isavailable")) && (sortByPrice.Str? || !Truthy(sortByPrice)) ==>
              cmd.Some?
              && cmd.value.text == SearchText(filter.Some?, if Truthy(sortByPrice) then Some(sortByPrice.s) else None)
              && cmd.value.params == (if filter.Some? then [Flag(filter.value)] else [])
    ensures cmd.None? <==> Truthy(Get(query, "sortByPrice")) && !Get(query, "sortByPrice").Str?
    ensures cmd.None? ==> out == Forward(NotAFunction)
    ensures cmd.Some? && db(cmd.value).Ok? ==> out == Send(200, Data(db(cmd.value).value))
    ensures cmd.Some? && db(cmd.value).Err? ==> out == Forward(db(cmd.value).error)
  {
    var sortByPrice, isavailable := Get(query, "sortByPrice"), Get(query, "isavailable");
    if Truthy(sortByPrice) || isavailable != Undefined {
      var available: Option<bool> := None;
      if isavailable != Undefined {
        if LooseEqualsWord(isavailable, "true") {
          available := Some(true);
        } else if LooseEqualsWord(isavailable, "false") {
          available := Some(false);
        }
      }
      var r := SearchStatement(sortByPrice, available);
      match r
      case Err(f) =>
        return None, Forward(f);
      case Ok(c) =>
        cmd := Some(c);
    } else {
      cmd := Some(SelectAll);
    }
    match db(cmd.value)
    case Ok(rows) => out := Send(200, Data(rows));
    case Err(f) => out := Forward(f);
  }

  /** The Prisma handler's parameter is ignored here: `?isAvailable=true` lists everything, unfiltered. */
  lemma CamelCaseParameterIgnored()
    ensures !TakesSearchPath(Get(map["isAvailable" := Str("true")], "sortByPrice"),
                             Get(map["isAvailable" := Str("true")], "isavailable"))
  {
  }

  /** `getProductByIdController`: 200 with the first row, 404 when there is none. */
  function GetProduct(productId: string, db: Database): (out: Outcome<Row>)
    ensures var a := db(ByIdStatement("SELECT *", productId));
            (a.Ok? && a.value != [] ==> out == Send(200, Data(a.value[0])))
            && (a.Ok? && a.value == [] ==> out == Send(404, Message("Product of the given Id was not found! ")))
            && (a.Err? ==> out == Forward(a.error))
  {
    SettleRows(db(ByIdStatement("SELECT *", productId)), r => Data(r), "Product of the given Id was not found! ")
  }

  /** `isAvailable === "true"`: only the string itself, not an array holding it, and not the boolean. */
  predicate StrictlyTrue(v: JsValue) {
    v == Str("true")
  }

  /** The create handlers disagree on the array ["true"]: loose equality accepts it, strict equality does not. */
  lemma StrictAndLooseDisagree()
    ensures LooseEqualsWord(Arr([Str("true")]), "true") && !StrictlyTrue(Arr([Str("true")]))
    ensures !LooseEqualsWord(Bool(true), "true") && !StrictlyTrue(Bool(true))
  {
  }

  /** Strict equality implies loose equality, never the other way round for arrays. */
  lemma StrictImpliesLoose(v: JsValue)
    ensures StrictlyTrue(v) ==> LooseEqualsWord(v, "true")
    ensures v.Str? ==> (StrictlyTrue(v) <==> LooseEqualsWord(v, "true"))
  {
  }

  /** The column values of the INSERT, in the order of its eight placeholders. */
  const InsertColumns: seq<string> :=
    ["name", "category", "description", "price", "stockCount", "brand", "imageUrl", "isAvailable"]

  /** The object `createProductController` builds: `category` as sent, strict `=== "true"` for availability. */
  function NewProduct(body: Body): (product: seq<Field>)
    ensures KeysOf(product) == InsertColumns
  {
    ObjectOf(InsertColumns,
      [Raw(Get(body, "name")),
       Raw(Get(body, "category")),
       Raw(Get(body, "description")),
       Float(Get(body, "price")),
       Int(ParseIntValue(Get(body, "stockCount"), Auto)),
       Raw(Get(body, "brand")),
       Raw(Get(body, "imageUrl")),
       Flag(StrictlyTrue(Get(body, "isAvailable")))])
  }

  /** `createProduct`: the INSERT binds the eight properties of the object to `$1` ... `$8`. */
  function InsertStatement(product: seq<Field>): (cmd: SqlCommand)
    ensures |cmd.params| == 8
    ensures forall j :: 0 <= j < 8 ==> cmd.params[j] == Prop(product, InsertColumns[j])
  {
    SqlCommand(InsertText, seq(8, j requires 0 <= j < 8 => Prop(product, InsertColumns[j])))
  }

  /** The text of the INSERT: the eight columns, then the placeholders `$1, $2, ..., $8`. */
  const InsertText := InsertHead + ParamList(1, 8) + ") RETURNING *;"

  const InsertHead :=
    "INSERT INTO products (" + "name, category, description, " + "price, stockCount, brand, " + "imageUrl, isAvailable) VALUES ("

  /** The INSERT numbers its placeholders 1 ... 8, in the order of its eight parameters. */
  lemma InsertPlaceholders()
    ensures Placeholders(InsertText) == Range(1, |InsertColumns|)
  {
    var tail := ") RETURNING *;";
    assert InsertText == InsertHead + (ParamList(1, 8) + tail);
    InsertHeadNoDollar();
    PlaceholdersSkip(InsertHead, ParamList(1, 8) + tail);
    ParamListPlaceholders(1, 8, tail);
    PlaceholdersSkip(tail, "");
    assert tail + "" == tail;
    assert Range(1, 8) + [] == Range(1, |InsertColumns|);
  }

  lemma InsertHeadNoDollar()
    ensures '$' !in InsertHead
  {
    assert '$' !in "INSERT INTO products (" && '$' !in "name, category, description, ";
    assert '$' !in "price, stockCount, brand, " && '$' !in "imageUrl, isAvailable) VALUES (";
  }

  lemma InsertColumnsDistinct()
    ensures DistinctKeys(InsertColumns)
  {
    forall i, j | 0 <= i < j < |InsertColumns| ensures InsertColumns[i] != InsertColumns[j] {
      if j == 7 && i == 6 {
        assert InsertColumns[i][1] != InsertColumns[j][1];
      } else {
        assert InsertColumns[i][0] != InsertColumns[j][0];
      }
    }
  }

  /** The INSERT parameters are the object's values in insertion order. */
  lemma InsertBindsInOrder(body: Body)
    ensures InsertStatement(NewProduct(body)).params == ValuesOf(NewProduct(body))
  {
    var product := NewProduct(body);
    InsertColumnsDistinct();
    DistinctFieldKeys(product, InsertColumns);
    PropsInOrder(product);
    forall j | 0 <= j < 8 ensures InsertColumns[j] == product[j].key {
      assert KeysOf(product)[j] == product[j].key;
    }
  }

  /**
   * `createProductController`: 201 with the first returned row, or the
   * failure forwarded. `RETURNING *` after a one-row INSERT returns that
   * row; were the row set empty, `data` would be `undefined`, which
   * `res.json` leaves out of the body.
   */
  function CreateProduct(body: Body, db: Database): (out: Outcome<Row>)
    ensures var a := db(InsertStatement(NewProduct(body)));
            (a.Err? ==> out == Forward(a.error))
            && (a.Ok? && a.value != [] ==> out == Send(201, MessageData("Product created succesfully!", a.value[0])))
            && (a.Ok? && a.value == [] ==> out == Send(201, Message("Product created succesfully!")))
  {
    match db(InsertStatement(NewProduct(body)))
    case Err(f) => Forward(f)
    case Ok(rows) =>
      if rows == [] then Send(201, Message("Product created succesfully!"))
      else Send(201, MessageData("Product created succesfully!", rows[0]))
  }

  /**
   * `partlyChangeProductController` over `updateProductPartly`: an empty
   * update set answers 400 and sends nothing; otherwise the UPDATE binds the
   * update values and then the id, and an empty row set answers 404.
   */
  method PartlyChangeProduct(productId: string, body: Body, db: Database) returns (cmd: Option<SqlCommand>, out: Outcome<Row>)
    ensures NothingToUpdate(body) <==> cmd.None?
    ensures cmd.None? ==> out == Send(400, Message("No valid fields provided for update."))
    ensures cmd.Some? ==> cmd.value.params == ValuesOf(UpdateSet(body)) + [Raw(Str(productId))]
    ensures cmd.Some? ==> Placeholders(cmd.value.text) == Range(1, |cmd.value.params|)
    ensures cmd.Some? ==> UpdateStatement(productId, UpdateSet(body)) == Ok(cmd.value)
    ensures cmd.Some? ==>
              var fields := UpdateSet(body);
              cmd.value.text == "UPDATE products SET " + (Join(SetItems(KeysOf(fields), 1), ", ") + IdClause(|fields| + 1))
    ensures cmd.Some? ==>
              var a := db(cmd.value);
              (a.Ok? && a.value != [] ==> out == Send(200, MessageData("Product successfully updated!", a.value[0])))
              && (a.Ok? && a.value == [] ==> out == Send(404, Message("Product of the given Id was not found!")))
              && (a.Err? ==> out == Forward(a.error))
  {
    var updateFields := NormaliseUpdate(body);
    if |updateFields| == 0 {
      cmd, out := None, Send(400, Message("No valid fields provided for update."));
    } else {
      match UpdateStatement(productId, updateFields)
      case Err(e) =>
        cmd, out := None, Forward(e);
      case Ok(c) =>
        AllowedKeysNoDollar(updateFields);
        UpdatePlaceholdersMatchParams(productId, updateFields);
        UpdateBindsColumns(productId, updateFields);
        assert c.params == c.params[..|updateFields|] + [c.params[|updateFields|]];
        cmd := Some(c);
        out := SettleRows(db(c), r => MessageData("Product successfully updated!", r), "Product of the given Id was not found!");
    }
  }

  /** No allow-listed key contains a `$`, so the SET clause never adds a placeholder of its own. */
  lemma AllowedKeysNoDollar(fields: seq<Field>)
    requires forall j :: 0 <= j < |fields| ==> fields[j].key in AllowedFields
    ensures NoDollar(KeysOf(fields))
  {
    AllowedFieldsNoDollar();
    forall j | 0 <= j < |fields| ensures '$' !in KeysOf(fields)[j] {
      assert KeysOf(fields)[j] == fields[j].key;
    }
  }

  /** `deleteProductController`: 200 with the deleted row, 404 when no row was deleted. */
  function DeleteProduct(productId: string, db: Database): (out: Outcome<Row>)
    ensures var a := db(ByIdStatement("DELETE", productId));
            (a.Ok? && a.value != [] ==> out == Send(200, MessageData("Product successfully deleted!", a.value[0])))
            && (a.Ok? && a.value == [] ==> out == Send(404, Message("Product of the given Id was not found!")))
            && (a.Err? ==> out == Forward(a.error))
  {
    SettleRows(db(ByIdStatement("DELETE", productId)), r => MessageData("Product successfully deleted!", r),
               "Product of the given Id was not found!")
  }
}

=== FILE: pg_product_model.dfy ===
/**
 * The `pg` product model: the SQL text and parameter list each operation
 * hands to `query`, and what it returns from the rows. The placeholders
 * `$1`, `$2`, ... in the text must line up with the parameter list.
 */
module PgProductModel {
  import opened Wrappers
  import opened Js
  import opened Records
  import opened Http

  /** One call of `query(text, ...params)`. */
  datatype SqlCommand = SqlCommand(text: string, params: seq<FieldValue>)

  /** `parts.join(sep)`. */
  function Join(parts: seq<string>, sep: string): string {
    if parts == [] then ""
    else if |parts| == 1 then parts[0]
    else parts[0] + sep + Join(parts[1..], sep)
  }

  /** `1, 2, ..., n` shifted to start at `start`. */
  function Range(start: nat, n: nat): (r: seq<nat>)
    ensures |r| == n && forall j :: 0 <= j < n ==> r[j] == start + j
    decreases n
  {
    if n == 0 then [] else [start] + Range(start + 1, n - 1)
  }

  lemma RangeSnoc(start: nat, n: nat)
    ensures Range(start, n) + [start + n] == Range(start, n + 1)
  {
    var a, b := Range(start, n) + [start + n], Range(start, n + 1);
    assert |a| == |b|;
    forall j | 0 <= j < |a| ensures a[j] == b[j] {
      if j < n {
        assert a[j] == Range(start, n)[j];
      }
    }
  }

  // ------------------------------------------------------------ placeholders

  /** The numbers of the `$n` placeholders in a SQL text, left to right (a `$` without digits is none). */
  function Placeholders(s: string): seq<nat>
    decreases |s|
  {
    if s == [] then []
    else if s[0] == '$' then
      var ds := DigitPrefix(s[1..], 10);
      (if ds == [] then [] else [DigitsValue(ds, 10)]) + Placeholders(s[1 + |ds|..])
    else Placeholders(s[1..])
  }

  /** Text without a `$` holds no placeholder. */
  lemma {:induction false} PlaceholdersSkip(p: string, s: string)
    requires '$' !in p
    ensures Placeholders(p + s) == Placeholders(s)
  {
    if p != [] {
      assert (p + s)[0] == p[0];
      assert (p + s)[1..] == p[1..] + s;
      PlaceholdersSkip(p[1..], s);
    } else {
      assert p + s == s;
    }
  }

  /** The placeholder `$i`, written with a template literal. */
  function Param(i: nat): string {
    "$" + NatToString(i)
  }

  /** `$n` written with `String(n)` reads back as placeholder `n` when no digit follows. */
  lemma PlaceholderThen(n: nat, s: string)
    requires s == [] || !IsDigitIn(s[0], 10)
    ensures Placeholders(Param(n) + s) == [n] + Placeholders(s)
  {
    var d := NatToString(n);
    var m := "$" + d + s;
    assert m[1..] == d + s;
    DigitPrefixOfDigits(d, s, 10);
    NatToStringValue(n);
    assert m[1 + |d|..] == s;
  }

  // ------------------------------------------------------------ UPDATE

  /** One item of the SET clause: `"key" = $i`. */
  function SetItem(key: string, i: nat): string {
    "\"" + key + "\" = " + Param(i)
  }

  /** `keys.map((key, index) => ...)` with the index shifted to start at `start`. */
  function SetItems(keys: seq<string>, start: nat): (items: seq<string>)
    ensures |items| == |keys|
    ensures forall j :: 0 <= j < |keys| ==> items[j] == SetItem(keys[j], start + j)
  {
    if keys == [] then [] else [SetItem(keys[0], start)] + SetItems(keys[1..], start + 1)
  }

  /** The SET clause: one numbered item per key, joined by ", ". */
  function SetClause(keys: seq<string>): string {
    Join(SetItems(keys, 1), ", ")
  }

  /**
   * `updateProductPartly`: the empty field object is refused before any
   * query; otherwise each key is set from the placeholder of its position
   * and the id takes the next one.
   */
  function UpdateStatement(id: string, fields: seq<Field>): (r: Result<SqlCommand, Failure>)
    ensures r.Err? <==> fields == []
    ensures r.Err? ==> r.error == PlainError("No fields provided for update")
    ensures r.Ok? ==> |r.value.params| == |fields| + 1
                      && r.value.params[..|fields|] == ValuesOf(fields)
                      && r.value.params[|fields|] == Raw(Str(id))
  {
    if fields == [] then Err(PlainError("No fields provided for update"))
    else
      var values := ValuesOf(fields);
      Ok(SqlCommand(
        "UPDATE products SET " + SetClause(KeysOf(fields)) + IdClause(|values| + 1),
        values + [Raw(Str(id))]))
  }

  predicate NoDollar(keys: seq<string>) {
    forall j :: 0 <= j < |keys| ==> '$' !in keys[j]
  }

  /** `$start, $(start + 1), ...`: `n` placeholders separated by ", ". */
  function ParamList(start: nat, n: nat): string
    decreases n
  {
    if n == 0 then "" else if n == 1 then Param(start) else Param(start) + ", " + ParamList(start + 1, n - 1)
  }

  /** The placeholders of such a list are `start`, `start + 1`, ... in order. */
  lemma {:induction false} ParamListPlaceholders(start: nat, n: nat, rest: string)
    requires rest == [] || !IsDigitIn(rest[0], 10)
    ensures Placeholders(ParamList(start, n) + rest) == Range(start, n) + Placeholders(rest)
    decreases n
  {
    if n == 0 {
      assert "" + rest == rest;
    } else if n == 1 {
      PlaceholderThen(start, rest);
    } else {
      ParamListPlaceholders(start + 1, n - 1, rest);
      ParamListStep(start, n, rest);
    }
  }

  /** One step of the induction above: the first placeholder, then what the rest of the list holds. */
  lemma ParamListStep(start: nat, n: nat, rest: string)
    requires n > 1
    requires Placeholders(ParamList(start + 1, n - 1) + rest) == Range(start + 1, n - 1) + Placeholders(rest)
    ensures Placeholders(ParamList(start, n) + rest) == Range(start, n) + Placeholders(rest)
  {
    var more := ParamList(start + 1, n - 1) + rest;
    var after := ", " + more;
    assert ParamList(start, n) == Param(start) + ", " + ParamList(start + 1, n - 1);
    assert ParamList(start, n) + rest == Param(start) + after by {
      Nest(Param(start), ", ", ParamList(start + 1, n - 1), rest);
    }
    assert after[0] == ',';
    PlaceholderThen(start, after);
    PlaceholdersSkip(", ", more);
  }

  lemma Nest(a: string, b: string, c: string, d: string)
    ensures a + b + c + d == a + (b + (c + d))
  {
  }

  /** One SET item followed by text that does not start with a digit holds exactly its own placeholder first. */
  lemma SetItemThen(key: string, i: nat, tail: string)
    requires '$' !in key
    requires tail == [] || tail[0] == ' ' || tail[0] == ','
    ensures Placeholders(SetItem(key, i) + tail) == [i] + Placeholders(tail)
  {
    var head := "\"" + key + "\" = ";
    assert '$' !in head by {
      assert head == ['"'] + key + ['"', ' ', '=', ' '];
    }
    assert SetItem(key, i) + tail == head + (Param(i) + tail);
    PlaceholdersSkip(head, Param(i) + tail);
    PlaceholderThen(i, tail);
  }

  lemma JoinThen(parts: seq<string>, sep: string, rest: string)
    requires |parts| > 1
    ensures Join(parts, sep) + rest == parts[0] + (sep + (Join(parts[1..], sep) + rest))
  {
  }

  /** The placeholders of a joined SET clause are `start`, `start + 1`, ... in order. */
  lemma {:induction false} SetClausePlaceholders(keys: seq<string>, start: nat, rest: string)
    requires NoDollar(keys)
    requires rest == [] || rest[0] == ' ' || rest[0] == ','
    ensures Placeholders(Join(SetItems(keys, start), ", ") + rest) == Range(start, |keys|) + Placeholders(rest)
  {
    if |keys| <= 1 {
      SetClauseShort(keys, start, rest);
    } else {
      NoDollarTail(keys);
      SetClausePlaceholders(keys[1..], start + 1, rest);
      SetClauseStep(keys, start, rest);
    }
  }

  lemma SetClauseShort(keys: seq<string>, start: nat, rest: string)
    requires |keys| <= 1 && NoDollar(keys)
    requires rest == [] || rest[0] == ' ' || rest[0] == ','
    ensures Placeholders(Join(SetItems(keys, start), ", ") + rest) == Range(start, |keys|) + Placeholders(rest)
  {
    if keys == [] {
      assert Join(SetItems(keys, start), ", ") == "";
      assert "" + rest == rest;
    } else {
      assert Join(SetItems(keys, start), ", ") == SetItem(keys[0], start);
      SetItemThen(keys[0], start, rest);
      assert Range(start, 1) == [start];
    }
  }

  lemma NoDollarTail(keys: seq<string>)
    requires keys != [] && NoDollar(keys)
    ensures NoDollar(keys[1..])
  {
    forall j | 0 <= j < |keys| - 1 ensures '$' !in keys[1..][j] {
      assert keys[1..][j] == keys[j + 1];
    }
  }

  /** One step of the induction above: the first item contributes `start`, the rest what the recursive call found. */
  lemma SetClauseStep(keys: seq<string>, start: nat, rest: string)
    requires |keys| > 1 && '$' !in keys[0]
    requires Placeholders(Join(SetItems(keys[1..], start + 1), ", ") + rest)
             == Range(start + 1, |keys| - 1) + Placeholders(rest)
    ensures Placeholders(Join(SetItems(keys, start), ", ") + rest) == Range(start, |keys|) + Placeholders(rest)
  {
    var items := SetItems(keys, start);
    var more := Join(items[1..], ", ") + rest;
    JoinThen(items, ", ", rest);
    SetItemThen(keys[0], start, ", " + more);
    PlaceholdersSkip(", ", more);
    assert items[1..] == SetItems(keys[1..], start + 1);
    assert [start] + Range(start + 1, |keys| - 1) == Range(start, |keys|);
  }

  /**
   * The UPDATE text numbers its placeholders 1, 2, ..., n + 1: exactly one
   * per parameter, in the order of the parameters, as long as no key
   * contains a `$` (the allow-listed keys do not).
   */
  lemma UpdatePlaceholdersMatchParams(id: string, fields: seq<Field>)
    requires fields != [] && NoDollar(KeysOf(fields))
    ensures UpdateStatement(id, fields).Ok?
    ensures var cmd := UpdateStatement(id, fields).value;
            Placeholders(cmd.text) == Range(1, |cmd.params|)
  {
    var n := |fields|;
    var rest := IdClause(n + 1);
    var clause := SetClause(KeysOf(fields));
    UpdateBindsColumns(id, fields);
    PlaceholdersSkip("UPDATE products SET ", clause + rest);
    IdClausePlaceholders(n + 1);
    SetClausePlaceholders(KeysOf(fields), 1, rest);
    RangeSnoc(1, n);
    var cmd := UpdateStatement(id, fields).value;
    assert Placeholders(cmd.text) == Placeholders(clause + rest);
    assert Placeholders(clause + rest) == Range(1, n) + [1 + n];
  }

  /**
   * The UPDATE binds each value to its column: item `j` of the SET clause
   * is `"key_j" = $(j + 1)` and parameter `j` (the value of `$(j + 1)`) is
   * the value of the same field; the WHERE takes `$(n + 1)`, bound to the id.
   */
  lemma UpdateBindsColumns(id: string, fields: seq<Field>)
    requires fields != []
    ensures UpdateStatement(id, fields).Ok?
    ensures var cmd, items := UpdateStatement(id, fields).value, SetItems(KeysOf(fields), 1);
            cmd.text == "UPDATE products SET " + (Join(items, ", ") + IdClause(|fields| + 1))
            && |items| == |fields| && |cmd.params| == |fields| + 1
            && (forall j :: 0 <= j < |fields| ==> items[j] == SetItem(fields[j].key, j + 1) && cmd.params[j] == fields[j].value)
            && cmd.params[|fields|] == Raw(Str(id))
  {
    Prepend("UPDATE products SET ", SetClause(KeysOf(fields)), IdClause(|fields| + 1));
  }

  /** The end of the UPDATE text, from the WHERE on. */
  function IdClause(i: nat): string {
    " WHERE id = " + Param(i) + " RETURNING *;"
  }

  lemma IdClausePlaceholders(i: nat)
    ensures Placeholders(IdClause(i)) == [i]
    ensures IdClause(i) != [] && IdClause(i)[0] == ' '
  {
    var tail := " RETURNING *;";
    assert IdClause(i) == " WHERE id = " + (Param(i) + tail);
    PlaceholdersSkip(" WHERE id = ", Param(i) + tail);
    PlaceholderThen(i, tail);
    ReturningHasNone();
  }

  lemma ReturningHasNone()
    ensures Placeholders(" RETURNING *;") == []
  {
    PlaceholdersSkip(" RETURNING *;", "");
    assert " RETURNING *;" + "" == " RETURNING *;";
  }

  // ------------------------------------------------------------ SELECT

  const Select := "SELECT * FROM products"

  const IsAvailableEq := "\"isavailable\" = "

  /** The condition on availability, bound to placeholder `i`. */
  function Condition(i: nat): string {
    IsAvailableEq + Param(i)
  }

  function WhereClause(filtered: bool): string {
    if filtered then " WHERE " + Condition(1) else ""
  }

  function OrderClause(direction: Option<string>): string {
    if direction.Some? then " ORDER BY price " + ToUpperAscii(direction.value) else ""
  }

  /** The text `searchProducts` sends, by what the criteria contain. */
  function SearchText(filtered: bool, direction: Option<string>): string {
    Select + WhereClause(filtered) + OrderClause(direction) + ";"
  }

  /** What `toUpperCase` on a value that is not a string throws. */
  const NotAFunction := Failure("criteria.sortByPrice.toUpperCase is not a function", Undefined, Undefined,
                                "TypeError: criteria.sortByPrice.toUpperCase is not a function")

  /**
   * `searchProducts`: one condition and one value per defined criterion,
   * numbered from `paramIndex`, then an ORDER BY when `sortByPrice` is
   * truthy. A truthy `sortByPrice` that is not a string (a repeated query
   * parameter) has no `toUpperCase` and throws.
   */
  method SearchStatement(sortByPrice: JsValue, isavailable: Option<bool>) returns (r: Result<SqlCommand, Failure>)
    ensures r.Err? <==> Truthy(sortByPrice) && !sortByPrice.Str?
    ensures r.Err? ==> r.error == NotAFunction
    ensures r.Ok? ==> r.value.text == SearchText(isavailable.Some?, if Truthy(sortByPrice) then Some(sortByPrice.s) else None)
    ensures r.Ok? ==> r.value.params == if isavailable.Some? then [Flag(isavailable.value)] else []
  {
    var queryText := Select;
    var conditions: seq<string> := [];
    var values: seq<FieldValue> := [];
    var paramIndex: nat := 1;

    if isavailable.Some? {
      conditions := conditions + [Condition(paramIndex)];
      values := values + [Flag(isavailable.value)];
      paramIndex := paramIndex + 1;
    }

    if |conditions| > 0 {
      assert Join(conditions, " AND ") == Condition(1);
      Prepend(queryText, " WHERE ", Condition(1));
      queryText := queryText + " WHERE " + Join(conditions, " AND ");
    }
    assert queryText == Select + WhereClause(isavailable.Some?);

    if Truthy(sortByPrice) {
      if !sortByPrice.Str? {
        return Err(NotAFunction);
      }
      Prepend(queryText, " ORDER BY price ", ToUpperAscii(sortByPrice.s));
      queryText := queryText + " ORDER BY price " + ToUpperAscii(sortByPrice.s);
    }

    queryText := queryText + ";";
    r := Ok(SqlCommand(queryText, values));
  }

  /** Every search starts with the products SELECT and ends with ";". */
  lemma SearchTextShape(filtered: bool, direction: Option<string>)
    ensures var t := SearchText(filtered, direction);
            |t| > |Select| && t[..|Select|] == Select && t[|t| - 1] == ';'
  {
    ConcatShape(Select, WhereClause(filtered), OrderClause(direction), ";");
  }

  lemma ConcatShape(a: string, b: string, c: string, d: string)
    requires |d| == 1
    ensures var t := a + b + c + d;
            |t| > |a| && t[..|a|] == a && t[|t| - 1] == d[0]
  {
    var t := a + b + c + d;
    assert t == a + (b + c + d);
  }

  /** WHERE appears when filtering and ORDER BY when a direction is given; with neither the text is the bare SELECT. */
  lemma SearchTextClauses(filtered: bool, direction: Option<string>)
    ensures filtered ==> Includes(SearchText(filtered, direction), WhereClause(true))
    ensures direction.Some? ==> Includes(SearchText(filtered, direction), OrderClause(direction))
    ensures !filtered && direction.None? ==> SearchText(filtered, direction) == "SELECT * FROM products;"
  {
    var w, o := WhereClause(filtered), OrderClause(direction);
    if filtered {
      Prepend(Select + w, o, ";");
      IncludesMiddle(Select, w, o + ";");
    }
    if direction.Some? {
      IncludesMiddle(Select + w, o, ";");
    }
  }

  lemma OrderClauseNoDollar(direction: Option<string>)
    requires direction.Some? ==> '$' !in direction.value
    ensures '$' !in OrderClause(direction) + ";"
    ensures !IsDigitIn((OrderClause(direction) + ";")[0], 10)
  {
    if direction.Some? {
      var u := ToUpperAscii(direction.value);
      forall j | 0 <= j < |u| ensures u[j] != '$' {
        assert direction.value[j] != '$';
      }
      assert OrderClause(direction) + ";" == " ORDER BY price " + u + ";";
    }
  }

  /** Without a `$` in the sort direction, the placeholders of a search are exactly one per parameter. */
  lemma SearchPlaceholdersMatchParams(filtered: bool, direction: Option<string>)
    requires direction.Some? ==> '$' !in direction.value
    ensures Placeholders(SearchText(filtered, direction)) == Range(1, if filtered then 1 else 0)
  {
    var end := OrderClause(direction) + ";";
    OrderClauseNoDollar(direction);
    assert SearchText(filtered, direction) == Select + WhereClause(filtered) + end;
    WherePlaceholders(filtered, end);
  }

  lemma WherePlaceholders(filtered: bool, end: string)
    requires '$' !in end && (end == [] || !IsDigitIn(end[0], 10))
    ensures Placeholders(Select + WhereClause(filtered) + end) == Range(1, if filtered then 1 else 0)
  {
    PlaceholdersSkip(end, "");
    assert end + "" == end;
    if filtered {
      FilteredPlaceholders(end);
    } else {
      assert Select + WhereClause(filtered) + end == Select + end;
      PlaceholdersSkip(Select, end);
    }
  }

  lemma FilteredPlaceholders(end: string)
    requires '$' !in end && (end == [] || !IsDigitIn(end[0], 10))
    ensures Placeholders(Select + WhereClause(true) + end) == [1] + Placeholders(end)
  {
    var d := Param(1);
    Regroup(Select, " WHERE ", IsAvailableEq, d, end);
    FilterLeadNoDollar();
    PlaceholdersSkip(Select + " WHERE " + IsAvailableEq, d + end);
    PlaceholderThen(1, end);
  }

  lemma Regroup(a: string, b: string, c: string, d: string, e: string)
    ensures a + (b + (c + d)) + e == (a + b + c) + (d + e)
  {
  }

  lemma FilterLeadNoDollar()
    ensures '$' !in Select + " WHERE " + IsAvailableEq
  {
  }

  /**
   * The sort direction is pasted into the SQL text: whatever the query
   * string carries after `sortByPrice=` reaches `query` verbatim, upper-cased.
   */
  lemma SortDirectionIsInterpolated(direction: string)
    ensures Includes(SearchText(false, Some(direction)), ToUpperAscii(direction))
  {
    var u := ToUpperAscii(direction);
    assert Select + WhereClause(false) == Select;
    Prepend(Select, " ORDER BY price ", u);
    IncludesMiddle(Select + " ORDER BY price ", u, ";");
  }

  // ------------------------------------------------------------ rows

  /** `rows.length === 0 ? null : rows[0]`, shared by get, update and delete. */
  function FirstRow(rows: seq<Row>): (r: Option<Row>)
    ensures r.None? <==> rows == []
    ensures r.Some? ==> r.value == rows[0]
  {
    if |rows| == 0 then None else Some(rows[0])
  }

  const SelectAll := SqlCommand("SELECT * FROM products;", [])

  /** The listing without criteria has no placeholder and no parameter. */
  lemma SelectAllPlaceholders()
    ensures Placeholders(SelectAll.text) == Range(1, |SelectAll.params|)
  {
    PlaceholdersSkip(SelectAll.text, "");
    assert SelectAll.text + "" == SelectAll.text;
  }

  /** `getProductById` and `deleteProduct`: the id is the only parameter, bound to `$1`; only the delete returns the row. */
  function ByIdStatement(verb: string, id: string): (cmd: SqlCommand)
    requires verb == "SELECT *" || verb == "DELETE"
    ensures cmd.params == [Raw(Str(id))]
    ensures Placeholders(cmd.text) == [1]
  {
    var head := verb + " FROM products WHERE id = ";
    var tail := if verb == "DELETE" then " RETURNING *;" else ";";
    ByIdHeadNoDollar(verb, head);
    PlaceholdersSkip(head, Param(1) + tail);
    PlaceholderThen(1, tail);
    PlaceholdersSkip(tail, "");
    assert tail + "" == tail;
    SqlCommand(head + (Param(1) + tail), [Raw(Str(id))])
  }

  lemma ByIdHeadNoDollar(verb: string, head: string)
    requires verb == "SELECT *" || verb == "DELETE"
    requires head == verb + " FROM products WHERE id = "
    ensures '$' !in head
  {
  }
}

=== FILE: product_controller.dfy ===
/**
 * The Prisma-backed product handlers: listing with optional filter and
 * sort, lookup, creation, partial update, deletion and the lookup with
 * relations. Each handler answers with a status and a JSON body or passes
 * the failure of the Prisma call to the error middleware.
 */
module ProductController {
  import opened Wrappers
  import opened Js
  import opened Records
  import opened Http
  import opened ProductRequest
  import opened ProductModel
  import ErrorHandler

  /** The Prisma client: the answer to one single-record call. */
  type Client = PrismaCall -> Answer<Row>
  /** The Prisma client: the answer to one `findMany`. */
  type Lister = PrismaCall -> Result<seq<Row>, Failure>
  /** The Prisma client: the record a `create` returns, or its rejection. */
  type Creator = PrismaCall -> Result<Row, Failure>

  /** The response for a single-record answer: 200 with `ok`, 404 with `missing`, or the failure forwarded. */
  function Settle(answer: Answer<Row>, ok: Row -> Payload<Row>, missing: string): (out: Outcome<Row>)
    ensures out.Send? ==> out.status in {200, 404}
    ensures out.Send? && out.status == 200 <==> answer.Found?
    ensures out.Send? && out.status == 404 <==> answer.Absent?
    ensures answer.Found? ==> out.payload == ok(answer.record)
    ensures answer.Absent? ==> out.payload == Message(missing)
    ensures out.Forward? <==> answer.Threw?
    ensures answer.Threw? ==> out.failure == answer.failure
  {
    match answer
    case Found(r) => Send(200, ok(r))
    case Absent => Send(404, Message(missing))
    case Threw(f) => Forward(f)
  }

  /**
   * `getAllProductsController`: a truthy `sortByPrice` or a present
   * `isAvailable` takes the search path, where "true"/"false" filter and any
   * other value leaves the filter out; otherwise every product is listed.
   */
  method ListProducts(query: Body, list: Lister) returns (call: PrismaCall, out: Outcome<seq<Row>>)
    ensures call.FindMany? <==> TakesSearchPath(Get(query, "sortByPrice"), Get(query, "isAvailable"))
    ensures !call.FindMany? ==> call == FindAll
    ensures call.FindMany? ==> call.args.where == AvailabilityFilter(Get(query, "isAvailable"))
    ensures call.FindMany? ==> (call.args.orderBy.Some? <==> Truthy(Get(query, "sortByPrice")))
    ensures call.FindMany? && call.args.orderBy.Some? ==> call.args.orderBy.value == Get(query, "sortByPrice")
    ensures list(call).Ok? ==> out == Send(200, Data(list(call).value))
    ensures list(call).Err? ==> out == Forward(list(call).error)
  {
    var sortByPrice, isAvailable := Get(query, "sortByPrice"), Get(query, "isAvailable");
    if Truthy(sortByPrice) || isAvailable != Undefined {
      var available: Option<bool> := None;
      if isAvailable != Undefined {
        if LooseEqualsWord(isAvailable, "true") {
          available := Some(true);
        } else if LooseEqualsWord(isAvailable, "false") {
          available := Some(false);
        }
      }
      var args := SearchArgs(sortByPrice, available);
      call := FindMany(args);
    } else {
      call := FindAll;
    }
    match list(call)
    case Ok(rows) => out := Send(200, Data(rows));
    case Err(f) => out := Forward(f);
  }

  /** `getProductByIdController`: 200 with the record, 404 when `findFirst` finds none. */
  function GetProduct(productId: string, db: Client): (out: Outcome<Row>)
    ensures var a := db(FindFirst(IdArg(productId)));
            (a.Found? ==> out == Send(200, Data(a.record)))
            && (a.Absent? ==> out == Send(404, Message("Product of the given Id was not found! ")))
            && (a.Threw? ==> out == Forward(a.failure))
  {
    Settle(db(FindFirst(IdArg(productId))), r => Data(r), "Product of the given Id was not found! ")
  }

  /** The object `createProductController` builds, as written: the category travels under `category`. */
  function NewProductAsWritten(body: Body): (product: seq<Field>)
    ensures "categoryId" !in KeysOf(product)
  {
    [Field("name", Raw(Get(body, "name"))),
     Field("category", Raw(Get(body, "category"))),
     Field("description", Raw(Get(body, "description"))),
     Field("price", Float(Get(body, "price"))),
     Field("stockCount", Int(ParseIntValue(Get(body, "stockCount"), Auto))),
     Field("brand", Raw(Get(body, "brand"))),
     Field("imageUrl", Raw(Get(body, "imageUrl"))),
     Field("isAvailable", Flag(LooseEqualsWord(Get(body, "isAvailable"), "true")))]
  }

  /** As written, every product reaches Prisma with a NaN `categoryId`, whatever the request says. */
  lemma CreateLosesCategory(body: Body)
    ensures CreateData(NewProductAsWritten(body))[1] == Field("categoryId", Int(None))
  {
    MissingCategoryIdIsNaN(NewProductAsWritten(body));
  }

  /** The object with the key the Prisma model reads: `categoryId` taken from the body. */
  function NewProduct(body: Body): (product: seq<Field>)
    ensures KeysOf(product) == ProductColumns
  {
    ObjectOf(ProductColumns,
      [Raw(Get(body, "name")),
       Raw(Get(body, "categoryId")),
       Raw(Get(body, "description")),
       Float(Get(body, "price")),
       Int(ParseIntValue(Get(body, "stockCount"), Auto)),
       Raw(Get(body, "brand")),
       Raw(Get(body, "imageUrl")),
       Flag(LooseEqualsWord(Get(body, "isAvailable"), "true"))])
  }

  /** With `categoryId` in the object, a decimal category id in the request reaches Prisma as its number. */
  lemma CreateKeepsCategory(body: Body, n: nat)
    requires Get(body, "categoryId") == Str(NatToString(n))
    ensures CreateData(NewProduct(body))[1] == Field("categoryId", Int(Some(n)))
  {
    var product := NewProduct(body);
    var data := CreateData(product);
    NewProductProps(body);
    assert data[1].key == KeysOf(data)[1] == "categoryId";
    assert CategoryIdArg(product) == ParseInt(NatToString(n), Auto);
    ParseIntReadsNat(n, Auto);
  }

  /** Reading a property of the object by name gives the value stored under it. */
  lemma NewProductProps(body: Body)
    ensures var product := NewProduct(body);
            forall j :: 0 <= j < |product| ==> Prop(product, ProductColumns[j]) == product[j].value
  {
    var product := NewProduct(body);
    ProductColumnsDistinct();
    DistinctFieldKeys(product, ProductColumns);
    PropsInOrder(product);
    forall j | 0 <= j < |product| ensures ProductColumns[j] == product[j].key {
      assert KeysOf(product)[j] == product[j].key;
    }
  }

  /** The row `createProduct` sends for a request: every column other than `categoryId` is the object's value, unchanged. */
  lemma CreateCopiesTheRest(body: Body)
    ensures var product, data := NewProduct(body), CreateData(NewProduct(body));
            forall j :: 0 <= j < |data| && j != 1 ==> data[j] == product[j]
  {
    var product := NewProduct(body);
    var data := CreateData(product);
    NewProductProps(body);
    forall j | 0 <= j < |data| && j != 1 ensures data[j] == product[j] {
      assert data[j].key == KeysOf(data)[j] == ProductColumns[j] == KeysOf(product)[j] == product[j].key;
      assert data[j].key != "categoryId" by {
        ProductColumnsDistinct();
      }
    }
  }

  /** The response to a create: 201 with the record Prisma created, or its rejection forwarded. */
  function CreateResponse(data: seq<Field>, create: Creator): Outcome<Row> {
    match create(Create(data))
    case Ok(r) => Send(201, MessageData("Product created succesfully!", r))
    case Err(f) => Forward(f)
  }

  /** `createProductController`, as written: the object it builds goes to `createProduct`; 201 with the created record, or the failure forwarded. */
  function CreateProduct(body: Body, create: Creator): (out: Outcome<Row>)
    ensures var answer := create(Create(CreateData(NewProductAsWritten(body))));
            (answer.Ok? ==> out == Send(201, MessageData("Product created succesfully!", answer.value)))
            && (answer.Err? ==> out == Forward(answer.error))
  {
    CreateResponse(CreateData(NewProductAsWritten(body)), create)
  }

  /** `createProductController` with `categoryId` in the object, so the category the request names reaches Prisma. */
  function CreateProductCorrected(body: Body, create: Creator): (out: Outcome<Row>)
    ensures var answer := create(Create(CreateData(NewProduct(body))));
            (answer.Ok? ==> out == Send(201, MessageData("Product created succesfully!", answer.value)))
            && (answer.Err? ==> out == Forward(answer.error))
  {
    CreateResponse(CreateData(NewProduct(body)), create)
  }

  /**
   * `partlyChangeProductController`: an empty update set answers 400 and
   * calls nothing; otherwise the update set goes to `updateProductPartly`
   * with the parsed id, and the answer decides between 200 and 404.
   */
  method PartlyChangeProduct(productId: string, body: Body, db: Client) returns (call: Option<PrismaCall>, out: Outcome<Row>)
    ensures NothingToUpdate(body) <==> call.None?
    ensures call.None? ==> out == Send(400, Message("No valid fields provided for update."))
    ensures call.Some? ==> call.value == Update(IdArg(productId), UpdateSet(body))
    ensures call.Some? ==>
              var a := db(call.value);
              (a.Found? ==> out == Send(200, MessageData("Product successfully updated!", a.record)))
              && (a.Absent? ==> out == Send(404, Message("Product of the given Id was not found!")))
              && (a.Threw? ==> out == Forward(a.failure))
  {
    var updateFields := NormaliseUpdate(body);
    if |updateFields| == 0 {
      call, out := None, Send(400, Message("No valid fields provided for update."));
    } else {
      match UpdateCall(productId, updateFields)
      case Err(e) =>
        call, out := None, Forward(e);
      case Ok(c) =>
        call := Some(c);
        out := Settle(db(c), r => MessageData("Product successfully updated!", r), "Product of the given Id was not found!");
    }
  }

  /** `deleteProductController`: 200 with the deleted record, 404 when none was deleted. */
  function DeleteProduct(productId: string, db: Client): (out: Outcome<Row>)
    ensures var a := db(Delete(IdArg(productId)));
            (a.Found? ==> out == Send(200, MessageData("Product successfully deleted!", a.record)))
            && (a.Absent? ==> out == Send(404, Message("Product of the given Id was not found!")))
            && (a.Threw? ==> out == Forward(a.failure))
  {
    Settle(db(Delete(IdArg(productId))), r => MessageData("Product successfully deleted!", r),
           "Product of the given Id was not found!")
  }

  /** `getProductDetailsController`: the product with its category and reviews, or 404. */
  function ProductDetails(productId: string, db: Client): (out: Outcome<Row>)
    ensures var a := db(FindUniqueWithRelations(IdArg(productId)));
            (a.Found? ==> out == Send(200, Data(a.record)))
            && (a.Absent? ==> out == Send(404, Message("Product not found")))
            && (a.Threw? ==> out == Forward(a.failure))
  {
    Settle(db(FindUniqueWithRelations(IdArg(productId))), r => Data(r), "Product not found")
  }

  /**
   * The delete of a missing product rejects, with "Record not found" in the
   * tests' mock and with code P2025 from the Prisma client; the handler
   * forwards the rejection and the middleware answers it with 404.
   */
  lemma DeleteMissingIs404(productId: string, db: Client, f: Failure)
    requires db(Delete(IdArg(productId))) == Threw(f)
    requires f == PlainError("Record not found") || f.code == Str("P2025")
    ensures DeleteProduct(productId, db) == Forward(f)
    ensures ErrorHandler.Respond(DeleteProduct(productId, db).failure).status == 404
  {
  }
}

=== FILE: product_model.dfy ===
/**
 * The Prisma product model: the query each operation hands to the Prisma
 * client. Every id arrives as a path string and is converted with
 * `parseInt` before it reaches the client.
 */
module ProductModel {
  import opened Wrappers
  import opened Js
  import opened Records
  import opened Http

  /** `Prisma.ProductFindManyArgs` as `searchProducts` fills it: an optional `where.isAvailable` and an optional `orderBy.price`. */
  datatype FindManyArgs = FindManyArgs(where: Option<bool>, orderBy: Option<JsValue>)

  /** One call on `prisma.product`; `None` as an id is the NaN that `parseInt` yields for a non-numeric id. */
  datatype PrismaCall =
    | FindAll
    | FindFirst(id: Option<int>)
    | FindMany(args: FindManyArgs)
    | Create(data: seq<Field>)
    | Update(id: Option<int>, data: seq<Field>)
    | Delete(id: Option<int>)
    | FindUniqueWithRelations(id: Option<int>)

  /** `parseInt(id)`, applied to every id before lookup, update and delete. */
  function IdArg(id: string): Option<int> {
    ParseInt(id, Auto)
  }

  /** A decimal id reads back as its number, a path segment that starts with letters as NaN. */
  lemma IdArgDecimal(n: nat)
    ensures IdArg(NatToString(n)) == Some(n)
  {
    ParseIntReadsNat(n, Auto);
  }

  /** The id of the update test, "999", reaches Prisma as the number 999. */
  lemma IdArgExample()
    ensures IdArg("999") == Some(999)
  {
    assert NatToString(999) == "999";
    IdArgDecimal(999);
  }

  /**
   * `searchProducts`: `where` is set whenever `isAvailable` is defined, so
   * an explicit `false` filters too; `orderBy` is set only for a truthy
   * `sortByPrice`, which is passed on as it came.
   */
  method SearchArgs(sortByPrice: JsValue, isAvailable: Option<bool>) returns (query: FindManyArgs)
    ensures query.where == isAvailable
    ensures query.orderBy.Some? <==> Truthy(sortByPrice)
    ensures query.orderBy.Some? ==> query.orderBy.value == sortByPrice
    ensures isAvailable.None? && !Truthy(sortByPrice) ==> query == FindManyArgs(None, None)
  {
    query := FindManyArgs(None, None);
    if isAvailable.Some? {
      query := query.(where := isAvailable);
    }
    if Truthy(sortByPrice) {
      query := query.(orderBy := Some(sortByPrice));
    }
  }

  const NoFields := "No fields provided for update"

  /** `updateProductPartly`: an empty field object throws before Prisma is called; otherwise the fields go through unchanged. */
  function UpdateCall(id: string, fields: seq<Field>): (r: Result<PrismaCall, Failure>)
    ensures r.Err? <==> fields == []
    ensures r.Err? ==> r.error == PlainError(NoFields)
    ensures r.Ok? ==> r.value.Update? && r.value.id == IdArg(id) && r.value.data == fields
  {
    if |fields| == 0 then Err(PlainError(NoFields)) else Ok(Update(IdArg(id), fields))
  }

  /** The properties `createProduct` sends, in order. */
  const ProductColumns: seq<string> :=
    ["name", "categoryId", "description", "price", "stockCount", "brand", "imageUrl", "isAvailable"]

  lemma ProductColumnsDistinct()
    ensures DistinctKeys(ProductColumns)
  {
    forall i, j | 0 <= i < j < |ProductColumns| ensures ProductColumns[i] != ProductColumns[j] {
      if j == 7 && i == 6 {
        assert ProductColumns[i][1] != ProductColumns[j][1];
      } else {
        assert ProductColumns[i][0] != ProductColumns[j][0];
      }
    }
  }

  /** `parseInt(product.categoryId)`; a property that is missing reads as `undefined`, which parses as NaN. */
  function CategoryIdArg(product: seq<Field>): Option<int> {
    match Prop(product, "categoryId")
    case Raw(v) => ParseIntValue(v, Auto)
    case Int(n) => n
    case _ => None
  }

  /**
   * `createProduct`: the eight properties of the new row, read from the
   * object the controller built; `categoryId` goes through `parseInt`, the
   * rest are copied.
   */
  function CreateData(product: seq<Field>): (data: seq<Field>)
    ensures KeysOf(data) == ProductColumns
    ensures forall j :: 0 <= j < |data| && data[j].key != "categoryId" ==> data[j].value == Prop(product, data[j].key)
    ensures data[1].value == Int(CategoryIdArg(product))
  {
    seq(|ProductColumns|, j requires 0 <= j < |ProductColumns| =>
      var key := ProductColumns[j];
      Field(key, if key == "categoryId" then Int(CategoryIdArg(product)) else Prop(product, key)))
  }

  /** An object without `categoryId` always creates a product whose category is NaN. */
  lemma MissingCategoryIdIsNaN(product: seq<Field>)
    requires "categoryId" !in KeysOf(product)
    ensures CreateData(product)[1].value == Int(None)
  {
    PropMissing(product, "categoryId");
    assert ToJsString(Undefined) == "undefined";
    assert TrimStart("undefined") == "undefined";
    assert DigitPrefix("undefined", 10) == [];
  }

  lemma {:induction false} PropMissing(fields: seq<Field>, key: string)
    requires key !in KeysOf(fields)
    ensures Prop(fields, key) == Raw(Undefined)
  {
    if fields != [] {
      assert KeysOf(fields)[0] == fields[0].key;
      assert KeysOf(fields[1..]) == KeysOf(fields)[1..];
      PropMissing(fields[1..], key);
    }
  }
}

=== FILE: product_request.dfy ===
/**
 * Request decoding shared by the two product controllers: the allow-list
 * and per-field coercion of a PATCH body, and the "true"/"false"/other
 * decoding of the availability query parameter.
 */
module ProductRequest {
  import opened Wrappers
  import opened Js
  import opened Records

  /** The properties a PATCH may change, in the order the handler visits them. */
  const AllowedFields: seq<string> :=
    ["name", "category", "description", "price", "stockCount", "brand", "imageUrl", "isAvailable"]

  /** The allowed keys are plain words: none holds a `$`, so none can pass for a SQL placeholder. */
  lemma AllowedFieldsNoDollar()
    ensures forall k :: k in AllowedFields ==> '$' !in k
  {
    forall j | 0 <= j < |AllowedFields| ensures '$' !in AllowedFields[j] {
      var k := AllowedFields[j];
      forall c | c in k ensures 'a' <= c <= 'z' || 'A' <= c <= 'Z' {
      }
    }
  }

  /** The coercion rule of each allowed property. */
  function Coerce(key: string, v: JsValue): FieldValue {
    if key == "price" then Float(v)
    else if key == "stockCount" then Int(ParseIntValue(v, Auto))
    else if key == "isAvailable" then Flag(LooseEqualsWord(v, "true"))
    else Raw(v)
  }

  /** The update object built from `keys`: each key whose body value is not `undefined`, coerced, in order. */
  function Selected(keys: seq<string>, body: Body): seq<Field> {
    if keys == [] then []
    else
      var key := keys[|keys| - 1];
      Selected(keys[..|keys| - 1], body)
      + (if Get(body, key) != Undefined then [Field(key, Coerce(key, Get(body, key)))] else [])
  }

  /** The update object `partlyChangeProductController` builds from a body. */
  function UpdateSet(body: Body): seq<Field> {
    Selected(AllowedFields, body)
  }

  /** No allowed property has a defined value. */
  predicate NothingToUpdate(body: Body) {
    forall key :: key in AllowedFields ==> Get(body, key) == Undefined
  }

  /**
   * The `forEach` over the allow-list in `partlyChangeProductController`
   * (both copies): it adds one coerced property per allowed key whose body
   * value is defined.
   */
  method NormaliseUpdate(body: Body) returns (updateFields: seq<Field>)
    ensures updateFields == UpdateSet(body)
    ensures forall j :: 0 <= j < |updateFields| ==>
              updateFields[j].key in AllowedFields
              && updateFields[j].value == Coerce(updateFields[j].key, Get(body, updateFields[j].key))
    ensures forall key :: key in KeysOf(updateFields) <==> key in AllowedFields && Get(body, key) != Undefined
    ensures updateFields == [] <==> NothingToUpdate(body)
  {
    updateFields := [];
    for i := 0 to |AllowedFields|
      invariant updateFields == Selected(AllowedFields[..i], body)
    {
      var field := AllowedFields[i];
      assert AllowedFields[..i + 1][..i] == AllowedFields[..i];
      if Get(body, field) != Undefined {
        if field == "price" {
          updateFields := updateFields + [Field("price", Float(Get(body, "price")))];
        } else if field == "stockCount" {
          updateFields := updateFields + [Field("stockCount", Int(ParseIntValue(Get(body, "stockCount"), Auto)))];
        } else if field == "isAvailable" {
          updateFields := updateFields + [Field("isAvailable", Flag(LooseEqualsWord(Get(body, "isAvailable"), "true")))];
        } else {
          updateFields := updateFields + [Field(field, Raw(Get(body, field)))];
        }
      }
    }
    assert AllowedFields[..|AllowedFields|] == AllowedFields;
    SelectedSound(AllowedFields, body);
    forall key ensures key in KeysOf(updateFields) <==> key in AllowedFields && Get(body, key) != Undefined {
      SelectedKeys(AllowedFields, body, key);
    }
    SelectedEmpty(AllowedFields, body);
  }

  /** Every property of the result comes from `keys`, with a defined body value, coerced by its rule. */
  lemma {:induction false} SelectedSound(keys: seq<string>, body: Body)
    ensures forall j :: 0 <= j < |Selected(keys, body)| ==>
              var f := Selected(keys, body)[j];
              f.key in keys && Get(body, f.key) != Undefined && f.value == Coerce(f.key, Get(body, f.key))
  {
    if keys != [] {
      var init := keys[..|keys| - 1];
      SelectedSound(init, body);
      forall k | k in init ensures k in keys {
        assert keys == init + [keys[|keys| - 1]];
      }
    }
  }

  /** A key is in the result exactly when it is in `keys` and its body value is defined. */
  lemma {:induction false} SelectedKeys(keys: seq<string>, body: Body, key: string)
    ensures key in KeysOf(Selected(keys, body)) <==> key in keys && Get(body, key) != Undefined
  {
    if keys != [] {
      var init := keys[..|keys| - 1];
      var last := keys[|keys| - 1];
      assert keys == init + [last];
      SelectedKeys(init, body, key);
      var tail := if Get(body, last) != Undefined then [Field(last, Coerce(last, Get(body, last)))] else [];
      KeysOfAppend(Selected(init, body), tail);
      assert KeysOf(tail) == (if Get(body, last) != Undefined then [last] else []);
    }
  }

  lemma KeysOfAppend(a: seq<Field>, b: seq<Field>)
    ensures KeysOf(a + b) == KeysOf(a) + KeysOf(b)
  {
    assert |KeysOf(a + b)| == |KeysOf(a) + KeysOf(b)|;
  }

  /** The result is empty exactly when no key of `keys` has a defined body value. */
  lemma {:induction false} SelectedEmpty(keys: seq<string>, body: Body)
    ensures Selected(keys, body) == [] <==> forall k :: k in keys ==> Get(body, k) == Undefined
  {
    if keys != [] {
      var init := keys[..|keys| - 1];
      assert keys == init + [keys[|keys| - 1]];
      SelectedEmpty(init, body);
    }
  }

  /** A property outside `keys`, whatever its value, never changes the result: unknown keys are dropped. */
  lemma {:induction false} SelectedIgnoresOtherKeys(keys: seq<string>, body: Body, other: string, v: JsValue)
    requires other !in keys
    ensures Selected(keys, body[other := v]) == Selected(keys, body)
    ensures Selected(keys, body - {other}) == Selected(keys, body)
  {
    if keys != [] {
      var init := keys[..|keys| - 1];
      assert keys == init + [keys[|keys| - 1]];
      SelectedIgnoresOtherKeys(init, body, other, v);
    }
  }

  /** `id`, `createdAt`, `categoryId` or any other key outside the allow-list is never forwarded. */
  lemma UnknownKeysDropped(body: Body, other: string, v: JsValue)
    requires other !in AllowedFields
    ensures UpdateSet(body[other := v]) == UpdateSet(body)
    ensures other !in KeysOf(UpdateSet(body[other := v]))
  {
    SelectedIgnoresOtherKeys(AllowedFields, body, other, v);
    SelectedKeys(AllowedFields, body, other);
  }

  /** The empty body, or one with only unknown keys, yields nothing to update. */
  lemma OnlyUnknownKeysIsEmpty(body: Body)
    requires forall k :: k in body ==> k !in AllowedFields
    ensures UpdateSet(body) == []
  {
    SelectedEmpty(AllowedFields, body);
  }

  lemma SelectedStep(keys: seq<string>, i: nat, body: Body)
    requires i < |keys|
    ensures Selected(keys[..i + 1], body) == Selected(keys[..i], body)
              + (if Get(body, keys[i]) != Undefined then [Field(keys[i], Coerce(keys[i], Get(body, keys[i])))] else [])
  {
    assert keys[..i + 1][..i] == keys[..i];
  }

  /** Keys past `i` whose body values are all undefined add nothing. */
  lemma {:induction false} SelectedUndefinedTail(keys: seq<string>, i: nat, body: Body)
    requires i <= |keys|
    requires forall j :: i <= j < |keys| ==> Get(body, keys[j]) == Undefined
    ensures Selected(keys, body) == Selected(keys[..i], body)
    decreases |keys|
  {
    if i < |keys| {
      var init := keys[..|keys| - 1];
      assert forall j :: i <= j < |init| ==> init[j] == keys[j];
      SelectedUndefinedTail(init, i, body);
      assert init[..i] == keys[..i];
    } else {
      assert keys[..i] == keys;
    }
  }

  /** The PATCH of a product test: a name and a price given as a string. */
  lemma NameAndPriceExample()
    ensures UpdateSet(map["name" := Str("Updated Product Name"), "price" := Str("22.99")])
            == [Field("name", Raw(Str("Updated Product Name"))), Field("price", Float(Str("22.99")))]
  {
    var body := map["name" := Str("Updated Product Name"), "price" := Str("22.99")];
    NameAndPriceHead(body);
    assert forall j :: 4 <= j < |AllowedFields| ==> AllowedFields[j] !in body;
    SelectedUndefinedTail(AllowedFields, 4, body);
  }

  lemma NameAndPriceHead(body: Body)
    requires body == map["name" := Str("Updated Product Name"), "price" := Str("22.99")]
    ensures Selected(AllowedFields[..4], body)
            == [Field("name", Raw(Str("Updated Product Name"))), Field("price", Float(Str("22.99")))]
  {
    assert AllowedFields[..0] == [];
    SelectedStep(AllowedFields, 0, body);
    SelectedStep(AllowedFields, 1, body);
    SelectedStep(AllowedFields, 2, body);
    SelectedStep(AllowedFields, 3, body);
  }

  /**
   * `isAvailable` is true only for a value loosely equal to "true": the JSON
   * boolean `true` and the string "false" both store false, while the
   * one-element array ["true"] stores true.
   */
  lemma IsAvailableCoercion()
    ensures Coerce("isAvailable", Str("true")) == Flag(true)
    ensures Coerce("isAvailable", Bool(true)) == Flag(false)
    ensures Coerce("isAvailable", Str("false")) == Flag(false)
    ensures Coerce("isAvailable", Arr([Str("true")])) == Flag(true)
    ensures Coerce("isAvailable", Null) == Flag(false)
  {
  }

  /** `stockCount` goes through `parseInt`: a JSON number and its string give the same count. */
  lemma StockCountCoercion(n: nat)
    ensures Coerce("stockCount", Num(NatToString(n))) == Int(Some(n))
    ensures Coerce("stockCount", Str(NatToString(n))) == Int(Some(n))
  {
    ParseIntReadsNat(n, Auto);
  }

  /** A word that does not start with a digit is NaN. */
  lemma StockCountText()
    ensures Coerce("stockCount", Str("many")) == Int(None)
  {
    assert TrimStart("many") == "many";
    assert AfterSign("many") == "many";
    assert DigitPrefix("many", 10) == [];
  }

  // ------------------------------------------------------------------ listing

  /**
   * The availability query parameter: "true" and "false" (compared with `==`)
   * select a filter; any other value, including a missing one, selects none.
   */
  function AvailabilityFilter(v: JsValue): (r: Option<bool>)
    ensures r == Some(true) <==> LooseEqualsWord(v, "true")
    ensures r == Some(false) <==> LooseEqualsWord(v, "false")
  {
    if v != Undefined && LooseEqualsWord(v, "true") then Some(true)
    else if v != Undefined && LooseEqualsWord(v, "false") then Some(false)
    else None
  }

  /** "banana" is no filter, while "false" filters on false: the two are different queries. */
  lemma AvailabilityFilterExamples()
    ensures AvailabilityFilter(Str("true")) == Some(true)
    ensures AvailabilityFilter(Str("false")) == Some(false)
    ensures AvailabilityFilter(Str("banana")) == None
    ensures AvailabilityFilter(Undefined) == None
    ensures AvailabilityFilter(Str("TRUE")) == None
  {
  }

  /** The listing takes the search path when `sortByPrice` is truthy or the availability parameter is present. */
  predicate TakesSearchPath(sortByPrice: JsValue, available: JsValue) {
    Truthy(sortByPrice) || available != Undefined
  }
}

=== FILE: records.dfy ===
/**
 * Request bodies, query strings and the typed objects the handlers build from
 * them before handing them to a storage client.
 */
module Records {
  import opened Wrappers
  import opened Js

  /** A parsed JSON body or Express query object: property name to value. */
  type Body = map<string, JsValue>

  /** A record as a storage client returns it: column or property name to value. */
  type Row = Body

  /** `body[key]`: a missing property reads as `undefined`. */
  function Get(body: Body, key: string): JsValue {
    if key in body then body[key] else Undefined
  }

  /** A value a handler stores into an object it builds. */
  datatype FieldValue =
    | Raw(v: JsValue)          // copied from the request unchanged
    | Float(arg: JsValue)      // parseFloat(arg); parseFloat itself is not modelled
    | Int(n: Option<int>)      // a parseInt result; None is NaN
    | Flag(b: bool)            // a boolean computed by the handler
    | ObjectRef(arg: JsValue)  // new ObjectId(arg)

  /** One property of an object built by a handler; an object is a sequence of them in insertion order. */
  datatype Field = Field(key: string, value: FieldValue)

  /** `Object.keys(obj)`. */
  function KeysOf(fields: seq<Field>): (keys: seq<string>)
    ensures |keys| == |fields|
    ensures forall j :: 0 <= j < |fields| ==> keys[j] == fields[j].key
  {
    seq(|fields|, j requires 0 <= j < |fields| => fields[j].key)
  }

  /** The object literal `{ k1: v1, k2: v2, ... }`: the keys in the order written, each with its value. */
  function ObjectOf(keys: seq<string>, values: seq<FieldValue>): (fields: seq<Field>)
    requires |keys| == |values|
    ensures |fields| == |keys| && KeysOf(fields) == keys
    ensures forall j :: 0 <= j < |keys| ==> fields[j] == Field(keys[j], values[j])
  {
    seq(|keys|, j requires 0 <= j < |keys| => Field(keys[j], values[j]))
  }

  /** The values of an object, in key order. */
  function ValuesOf(fields: seq<Field>): (values: seq<FieldValue>)
    ensures |values| == |fields|
    ensures forall j :: 0 <= j < |fields| ==> values[j] == fields[j].value
  {
    seq(|fields|, j requires 0 <= j < |fields| => fields[j].value)
  }

  /** `obj[key]` on a built object: the first property with that key, else `undefined`. */
  function Prop(fields: seq<Field>, key: string): FieldValue {
    if fields == [] then Raw(Undefined)
    else if fields[0].key == key then fields[0].value
    else Prop(fields[1..], key)
  }

  /** The property at position `j` is what `obj[key]` reads when no earlier property has that key. */
  lemma {:induction false} PropAt(fields: seq<Field>, j: nat)
    requires j < |fields|
    requires forall i :: 0 <= i < j ==> fields[i].key != fields[j].key
    ensures Prop(fields, fields[j].key) == fields[j].value
  {
    if j > 0 {
      assert fields[1..][j - 1] == fields[j];
      PropAt(fields[1..], j - 1);
    }
  }

  /** No key occurs twice. */
  predicate DistinctKeys(keys: seq<string>) {
    forall i, j :: 0 <= i < j < |keys| ==> keys[i] != keys[j]
  }

  /** In an object without repeated keys, `obj[key]` reads the property stored under that key. */
  lemma PropsInOrder(fields: seq<Field>)
    requires forall i, j :: 0 <= i < j < |fields| ==> fields[i].key != fields[j].key
    ensures forall j :: 0 <= j < |fields| ==> Prop(fields, fields[j].key) == fields[j].value
  {
    forall j | 0 <= j < |fields| ensures Prop(fields, fields[j].key) == fields[j].value {
      PropAt(fields, j);
    }
  }

  lemma DistinctFieldKeys(fields: seq<Field>, keys: seq<string>)
    requires KeysOf(fields) == keys && DistinctKeys(keys)
    ensures forall i, j :: 0 <= i < j < |fields| ==> fields[i].key != fields[j].key
  {
    forall i, j | 0 <= i < j < |fields| ensures fields[i].key != fields[j].key {
      assert fields[i].key == keys[i] && fields[j].key == keys[j];
    }
  }
}

=== FILE: review_controller.dfy ===
/**
 * The review handlers: creation with defaults, partial update with in-place
 * conversion of the body, the paged listing of a product's reviews, the
 * statistics, the advanced search and the like.
 */
module ReviewController {
  import opened Wrappers
  import opened Js
  import opened Records
  import opened Http
  import opened ReviewModel

  /** The collection's answer to a single-document command. */
  type Reviews = MongoCall -> Answer<Row>
  /** The collection's answer to a `find` or `aggregate` that yields documents. */
  type ReviewLister = MongoCall -> Result<seq<Row>, Failure>
  /** The collection's answer to the rating aggregation. */
  type Grouper = MongoCall -> Result<seq<RatingGroup>, Failure>
  /** The id `insertOne` assigns, or its rejection. */
  type Inserter = MongoCall -> Result<string, Failure>

  const NotFound := "Review not found"

  /**
   * A guarded single-document operation: a thrown guard is forwarded, an
   * invalid id is "not found" without a command, and otherwise the
   * collection's answer decides between 200 and 404.
   */
  function SettleGuarded(guard: Result<Option<MongoCall>, Failure>, db: Reviews, ok: Row -> Payload<Row>): (out: Outcome<Row>)
    ensures guard.Err? ==> out == Forward(guard.error)
    ensures guard == Ok(None) ==> out == Send(404, Message(NotFound))
    ensures guard.Ok? && guard.value.Some? ==>
              match db(guard.value.value)
              case Found(r) => out == Send(200, ok(r))
              case Absent => out == Send(404, Message(NotFound))
              case Threw(f) => out == Forward(f)
  {
    match guard
    case Err(f) => Forward(f)
    case Ok(None) => Send(404, Message(NotFound))
    case Ok(Some(c)) =>
      match db(c)
      case Found(r) => Send(200, ok(r))
      case Absent => Send(404, Message(NotFound))
      case Threw(f) => Forward(f)
  }

  // ---------------------------------------------------------------- create

  /** The properties of a new review, in the order the handler writes them. */
  const ReviewColumns: seq<string> :=
    ["productId", "userId", "rating", "title", "content", "pros", "cons", "verifiedPurchase", "likes"]

  /** `Array.isArray(v) ? v : []`. */
  function ArrayOrEmpty(v: JsValue): (r: JsValue)
    ensures r.Arr?
    ensures v.Arr? ==> r == v
  {
    if v.Arr? then v else Arr([])
  }

  /** `likes ? parseInt(likes, 10) : 0`. */
  function LikesOf(v: JsValue): (n: Option<int>)
    ensures !Truthy(v) ==> n == Some(0)
    ensures Truthy(v) ==> n == ParseIntValue(v, Decimal)
  {
    if Truthy(v) then ParseIntValue(v, Decimal) else Some(0)
  }

  /** The review `createReviewController` builds once both ids are valid. */
  function NewReview(body: Body): (doc: seq<Field>)
    ensures |doc| == 9 && KeysOf(doc) == ReviewColumns
    ensures doc[5].value.Raw? && doc[5].value.v.Arr? && doc[6].value.Raw? && doc[6].value.v.Arr?
    ensures doc[7].value == Flag(Get(body, "verifiedPurchase") == Bool(true))
  {
    ObjectOf(ReviewColumns,
      [ObjectRef(Get(body, "productId")),
       ObjectRef(Get(body, "userId")),
       Int(ParseIntValue(Get(body, "rating"), Decimal)),
       Raw(Get(body, "title")),
       Raw(Get(body, "content")),
       Raw(ArrayOrEmpty(Get(body, "pros"))),
       Raw(ArrayOrEmpty(Get(body, "cons"))),
       Flag(Get(body, "verifiedPurchase") == Bool(true)),
       Int(LikesOf(Get(body, "likes")))])
  }

  /** A body with only the required properties gets empty pros and cons, no verified purchase and no likes. */
  lemma CreateDefaults(body: Body)
    requires Get(body, "pros") == Undefined && Get(body, "cons") == Undefined
    requires Get(body, "verifiedPurchase") == Undefined && Get(body, "likes") == Undefined
    ensures var doc := NewReview(body);
            doc[5].value == Raw(Arr([])) && doc[6].value == Raw(Arr([]))
            && doc[7].value == Flag(false) && doc[8].value == Int(Some(0))
  {
  }

  /** Only the JSON boolean `true` marks a verified purchase; the string "true" does not. */
  lemma VerifiedPurchaseNeedsBoolean(body: Body)
    requires Get(body, "verifiedPurchase") == Str("true")
    ensures NewReview(body)[7].value == Flag(false)
  {
  }

  /** A present but non-numeric `likes` is stored as NaN, not as the default 0. */
  lemma NonNumericLikesIsNaN()
    ensures LikesOf(Str("many")) == None
    ensures LikesOf(Str("")) == Some(0)
  {
    assert TrimStart("many") == "many";
    assert AfterSign("many") == "many";
    assert DigitPrefix("many", 10) == [];
  }

  /** `createReview`: a missing collection throws; the stored review comes back under its new `_id`. */
  function InsertReview(data: seq<Field>, connected: bool, insert: Inserter): (r: Result<seq<Field>, Failure>)
    ensures !connected ==> r == Err(PlainError(NoCollection))
    ensures connected ==> (r.Err? <==> insert(InsertOne(data)).Err?)
    ensures r.Ok? ==> |r.value| == |data| + 1 && r.value[0].key == "_id" && r.value[1..] == data
  {
    if !connected then Err(PlainError(NoCollection))
    else match insert(InsertOne(data))
      case Err(f) => Err(f)
      case Ok(id) => Ok([Field("_id", Raw(Str(id)))] + data)
  }

  /** `createReviewController`: 400 unless both ids are valid ObjectIds; then 201 with the stored review. */
  function CreateReview(body: Body, isValid: IdCheck, connected: bool, insert: Inserter): (out: Outcome<seq<Field>>)
    ensures !isValid(Get(body, "productId")) || !isValid(Get(body, "userId")) ==>
              out == Send(400, Message("Invalid productId or userId"))
    ensures isValid(Get(body, "productId")) && isValid(Get(body, "userId")) ==>
              match InsertReview(NewReview(body), connected, insert)
              case Ok(doc) => out == Send(201, MessageData("Review created successfully", doc))
              case Err(f) => out == Forward(f)
  {
    if !isValid(Get(body, "productId")) || !isValid(Get(body, "userId")) then
      Send(400, Message("Invalid productId or userId"))
    else match InsertReview(NewReview(body), connected, insert)
      case Ok(doc) => Send(201, MessageData("Review created successfully", doc))
      case Err(f) => Forward(f)
  }

  // ---------------------------------------------------------------- update

  /** The value the PATCH handler leaves under `key`: ids become ObjectIds when truthy and valid, counts are parsed when truthy. */
  function ConvertedField(key: string, v: JsValue, isValid: IdCheck): FieldValue {
    if (key == "productId" || key == "userId") && Truthy(v) && isValid(v) then ObjectRef(v)
    else if (key == "rating" || key == "likes") && Truthy(v) then Int(ParseIntValue(v, Decimal))
    else Raw(v)
  }

  /**
   * The in-place conversions of `partlyChangeReviewController`: the body
   * keeps every key it came with, and four of them may be overwritten.
   */
  method ConvertUpdate(body: Body, isValid: IdCheck) returns (updateData: Document)
    ensures updateData.Keys == body.Keys
    ensures forall k :: k in body ==> updateData[k] == ConvertedField(k, body[k], isValid)
  {
    updateData := map k | k in body :: Raw(body[k]);
    AsSent(updateData, body, isValid);
    ConvertedCases(Get(body, "productId"), Get(body, "userId"), Get(body, "rating"), Get(body, "likes"), isValid);
    var before := updateData;
    var converts := Truthy(Get(body, "productId")) && isValid(Get(body, "productId"));
    if converts {
      updateData := updateData["productId" := ObjectRef(Get(body, "productId"))];
    }
    ConvertStep(before, body, isValid, 0, "productId", converts, ObjectRef(Get(body, "productId")));
    before := updateData;
    converts := Truthy(Get(body, "userId")) && isValid(Get(body, "userId"));
    if converts {
      updateData := updateData["userId" := ObjectRef(Get(body, "userId"))];
    }
    ConvertStep(before, body, isValid, 1, "userId", converts, ObjectRef(Get(body, "userId")));
    before := updateData;
    converts := Truthy(Get(body, "rating"));
    if converts {
      updateData := updateData["rating" := Int(ParseIntValue(Get(body, "rating"), Decimal))];
    }
    ConvertStep(before, body, isValid, 2, "rating", converts, Int(ParseIntValue(Get(body, "rating"), Decimal)));
    before := updateData;
    converts := Truthy(Get(body, "likes"));
    if converts {
      updateData := updateData["likes" := Int(ParseIntValue(Get(body, "likes"), Decimal))];
    }
    ConvertStep(before, body, isValid, 3, "likes", converts, Int(ParseIntValue(Get(body, "likes"), Decimal)));
    AllConverted(updateData, body, isValid);
  }

  /** The keys the PATCH handler converts, in the order it tests them. */
  function ConvertedKey(i: nat): string
    requires i < 4
  {
    if i == 0 then "productId" else if i == 1 then "userId" else if i == 2 then "rating" else "likes"
  }

  /** `key` is one of the first `n` keys the handler converts. */
  predicate ConvertedBefore(key: string, n: nat) {
    (n > 0 && key == "productId") || (n > 1 && key == "userId") || (n > 2 && key == "rating") || (n > 3 && key == "likes")
  }

  /** `m` holds every key of `body`, converted for the first `n` converted keys and as sent for the others. */
  ghost predicate ConvertedUpTo(m: Document, body: Body, isValid: IdCheck, n: nat) {
    m.Keys == body.Keys
    && forall k :: k in body ==>
         m[k] == (if ConvertedBefore(k, n) then ConvertedField(k, body[k], isValid) else Raw(body[k]))
  }

  /** The conversion rule of each of the four keys, unfolded once. */
  lemma ConvertedCases(productId: JsValue, userId: JsValue, rating: JsValue, likes: JsValue, isValid: IdCheck)
    ensures ConvertedField("productId", productId, isValid)
            == if Truthy(productId) && isValid(productId) then ObjectRef(productId) else Raw(productId)
    ensures ConvertedField("userId", userId, isValid)
            == if Truthy(userId) && isValid(userId) then ObjectRef(userId) else Raw(userId)
    ensures ConvertedField("rating", rating, isValid)
            == if Truthy(rating) then Int(ParseIntValue(rating, Decimal)) else Raw(rating)
    ensures ConvertedField("likes", likes, isValid)
            == if Truthy(likes) then Int(ParseIntValue(likes, Decimal)) else Raw(likes)
  {
  }

  lemma AsSent(m: Document, body: Body, isValid: IdCheck)
    requires m == map k | k in body :: Raw(body[k])
    ensures ConvertedUpTo(m, body, isValid, 0)
  {
  }

  /** One conversion of the handler extends the converted keys by one; a skipped one leaves a value already equal to its conversion. */
  lemma ConvertStep(m: Document, body: Body, isValid: IdCheck, n: nat, key: string, converts: bool, v: FieldValue)
    requires n < 4 && key == ConvertedKey(n) && ConvertedUpTo(m, body, isValid, n)
    requires converts ==> key in body && v == ConvertedField(key, body[key], isValid)
    requires !converts && key in body ==> ConvertedField(key, body[key], isValid) == Raw(body[key])
    ensures ConvertedUpTo(if converts then m[key := v] else m, body, isValid, n + 1)
  {
    assert !ConvertedBefore(key, n);
  }

  lemma AllConverted(m: Document, body: Body, isValid: IdCheck)
    requires ConvertedUpTo(m, body, isValid, 4)
    ensures forall k :: k in body ==> m[k] == ConvertedField(k, body[k], isValid)
  {
    forall k | k in body ensures m[k] == ConvertedField(k, body[k], isValid) {
      if !ConvertedBefore(k, 4) {
        UnknownKeysForwarded(k, body[k], isValid);
      }
    }
  }

  /** Any key other than the four converted ones, `_id` included, is forwarded to `$set` as sent. */
  lemma UnknownKeysForwarded(key: string, v: JsValue, isValid: IdCheck)
    requires key !in {"productId", "userId", "rating", "likes"}
    ensures ConvertedField(key, v, isValid) == Raw(v)
  {
  }

  /** A malformed id is not refused: it is stored as the string it was. */
  lemma InvalidIdKeptAsSent(v: JsValue, isValid: IdCheck)
    requires !isValid(v)
    ensures ConvertedField("productId", v, isValid) == Raw(v)
    ensures ConvertedField("userId", v, isValid) == Raw(v)
  {
  }

  /** A falsy rating (0, "" or `null`) is not parsed: it is stored as sent. */
  lemma FalsyRatingKeptAsSent(isValid: IdCheck)
    ensures ConvertedField("rating", Num("0"), isValid) == Raw(Num("0"))
    ensures ConvertedField("rating", Null, isValid) == Raw(Null)
    ensures ConvertedField("rating", Str("4"), isValid) == Int(Some(4))
  {
    assert ToJsString(Str("4")) == "4";
    assert TrimStart("4") == "4";
    assert AfterSign("4") == "4";
    assert DigitPrefix("4", 10) == "4";
    assert DigitsValue("4", 10) == DigitsValue("", 10) * 10 + 4;
  }

  /**
   * `partlyChangeReviewController`: a body without keys answers 400 and
   * sends nothing; otherwise the converted body goes to `$set` under the
   * guards of `partlyChangeReview`.
   */
  method PartlyChangeReview(reviewId: string, body: Body, isValid: IdCheck, connected: bool, db: Reviews)
    returns (sent: Option<MongoCall>, out: Outcome<Row>)
    ensures |body| == 0 ==> sent.None? && out == Send(400, Message("No valid fields provided for update."))
    ensures |body| != 0 && !connected ==> sent.None? && out == Forward(PlainError(NoCollection))
    ensures |body| != 0 && connected && !isValid(Str(reviewId)) ==> sent.None? && out == Send(404, Message(NotFound))
    ensures sent.Some? <==> |body| != 0 && connected && isValid(Str(reviewId))
    ensures sent.Some? ==>
              sent.value.FindOneAndUpdate? && sent.value.id == reviewId && sent.value.update.SetFields?
              && sent.value.update.fields.Keys == body.Keys
              && forall k :: k in body ==> sent.value.update.fields[k] == ConvertedField(k, body[k], isValid)
    ensures sent.Some? ==>
              match db(sent.value)
              case Found(r) => out == Send(200, MessageData("Review successfully updated", r))
              case Absent => out == Send(404, Message(NotFound))
              case Threw(f) => out == Forward(f)
  {
    if |body| == 0 {
      return None, Send(400, Message("No valid fields provided for update."));
    }
    var updateData := ConvertUpdate(body, isValid);
    var g := ByIdCall(reviewId, connected, isValid, FindOneAndUpdate(reviewId, SetFields(updateData)));
    sent := if g.Ok? then g.value else None;
    out := SettleGuarded(g, db, r => MessageData("Review successfully updated", r));
  }

  // ---------------------------------------------------------------- lookups

  /** `getReviewByIdController`. */
  function GetReview(reviewId: string, isValid: IdCheck, connected: bool, db: Reviews): (out: Outcome<Row>)
    ensures !connected ==> out == Forward(PlainError(NoCollection))
    ensures connected && !isValid(Str(reviewId)) ==> out == Send(404, Message(NotFound))
    ensures connected && isValid(Str(reviewId)) ==>
              match db(FindOne(reviewId))
              case Found(r) => out == Send(200, Data(r))
              case Absent => out == Send(404, Message(NotFound))
              case Threw(f) => out == Forward(f)
  {
    SettleGuarded(ByIdCall(reviewId, connected, isValid, FindOne(reviewId)), db, r => Data(r))
  }

  /** `deleteReviewController`. */
  function DeleteReview(reviewId: string, isValid: IdCheck, connected: bool, db: Reviews): (out: Outcome<Row>)
    ensures !connected ==> out == Forward(PlainError(NoCollection))
    ensures connected && !isValid(Str(reviewId)) ==> out == Send(404, Message(NotFound))
    ensures connected && isValid(Str(reviewId)) ==>
              match db(FindOneAndDelete(reviewId))
              case Found(r) => out == Send(200, MessageData("Review successfully deleted", r))
              case Absent => out == Send(404, Message(NotFound))
              case Threw(f) => out == Forward(f)
  {
    SettleGuarded(ByIdCall(reviewId, connected, isValid, FindOneAndDelete(reviewId)), db,
                  r => MessageData("Review successfully deleted", r))
  }

  /** `getReviewDetailsController`: the review with its product and user. */
  function ReviewDetails(reviewId: string, isValid: IdCheck, connected: bool, db: Reviews): (out: Outcome<Row>)
    ensures !connected ==> out == Forward(PlainError(NoCollection))
    ensures connected && !isValid(Str(reviewId)) ==> out == Send(404, Message(NotFound))
    ensures connected && isValid(Str(reviewId)) ==>
              match db(WithRelations(reviewId))
              case Found(r) => out == Send(200, Data(r))
              case Absent => out == Send(404, Message(NotFound))
              case Threw(f) => out == Forward(f)
  {
    SettleGuarded(ByIdCall(reviewId, connected, isValid, WithRelations(reviewId)), db, r => Data(r))
  }

  /** `likeReviewController`: the `$inc` of one like under the id guards. */
  function LikeReview(reviewId: string, isValid: IdCheck, connected: bool, db: Reviews): (out: Outcome<Row>)
    ensures !connected ==> out == Forward(PlainError(NoCollection))
    ensures connected && !isValid(Str(reviewId)) ==> out == Send(404, Message(NotFound))
    ensures connected && isValid(Str(reviewId)) ==>
              match db(FindOneAndUpdate(reviewId, LikeUpdate))
              case Found(r) => out == Send(200, MessageData("Review liked", r))
              case Absent => out == Send(404, Message(NotFound))
              case Threw(f) => out == Forward(f)
  {
    SettleGuarded(ByIdCall(reviewId, connected, isValid, FindOneAndUpdate(reviewId, LikeUpdate)), db,
                  r => MessageData("Review liked", r))
  }

  /** `getAllReviewsController`: every review, unguarded by ids. */
  function AllReviews(connected: bool, list: ReviewLister): (out: Outcome<seq<Row>>)
    ensures !connected ==> out == Forward(PlainError(NoCollection))
    ensures connected && list(FindEvery).Ok? ==> out == Send(200, Data(list(FindEvery).value))
    ensures connected && list(FindEvery).Err? ==> out == Forward(list(FindEvery).error)
  {
    if !connected then Forward(PlainError(NoCollection))
    else match list(FindEvery)
      case Ok(rows) => Send(200, Data(rows))
      case Err(f) => Forward(f)
  }

  // ---------------------------------------------------------------- paging

  /** `parseInt(v, 10) || fallback`: NaN and 0 take the fallback, every other number (negative ones too) stays. */
  function NumberOr(v: JsValue, fallback: int): (n: int)
    ensures IsFalsyNumber(ParseIntValue(v, Decimal)) ==> n == fallback
    ensures !IsFalsyNumber(ParseIntValue(v, Decimal)) ==> Some(n) == ParseIntValue(v, Decimal)
  {
    match ParseIntValue(v, Decimal)
    case None => fallback
    case Some(k) => if k == 0 then fallback else k
  }

  /** `(v as string) || fallback`; a truthy value is used as the sort key through `String(v)`. */
  function TextOr(v: JsValue, fallback: JsValue): (r: JsValue)
    ensures Truthy(v) ==> r == v
    ensures !Truthy(v) ==> r == fallback
  {
    if Truthy(v) then v else fallback
  }

  /** Page 1 and limit 10 when the parameters are missing. */
  lemma PagingDefaults()
    ensures NumberOr(Undefined, 1) == 1 && NumberOr(Undefined, 10) == 10
  {
    assert TrimStart("undefined") == "undefined";
    assert DigitPrefix("undefined", 10) == [];
  }

  /** A given page, even a negative one, is kept as sent; only 0 falls back. */
  lemma GivenPageKept(n: nat)
    requires n > 0
    ensures NumberOr(Str(NatToString(n)), 1) == n
    ensures NumberOr(Str("-" + NatToString(n)), 1) == 0 - n
  {
    ParseIntReadsNat(n, Decimal);
  }

  lemma ZeroPageFallsBack()
    ensures NumberOr(Str("0"), 1) == 1
  {
    assert TrimStart("0") == "0";
    assert AfterSign("0") == "0";
    assert DigitPrefix("0", 10) == "0";
  }

  /**
   * `getReviewsByProductController`: page and limit default to 1 and 10,
   * the sort key to "rating" and the order to "desc"; an invalid product
   * id lists nothing.
   */
  function ReviewsByProduct(productId: string, query: Body, isValid: IdCheck, connected: bool, list: ReviewLister)
    : (out: Outcome<seq<Row>>)
    ensures var page, limit := NumberOr(Get(query, "page"), 1), NumberOr(Get(query, "limit"), 10);
            var sortBy := ToJsString(TextOr(Get(query, "sortBy"), Str("rating")));
            var sortOrder := TextOr(Get(query, "sortOrder"), Str("desc"));
            match ByProductCall(productId, page, limit, sortBy, sortOrder, connected, isValid)
            case Err(f) => out == Forward(f)
            case Ok(None) => out == Send(200, Data([]))
            case Ok(Some(c)) => (list(c).Ok? ==> out == Send(200, Data(list(c).value)))
                                && (list(c).Err? ==> out == Forward(list(c).error))
  {
    var page, limit := NumberOr(Get(query, "page"), 1), NumberOr(Get(query, "limit"), 10);
    var sortBy := ToJsString(TextOr(Get(query, "sortBy"), Str("rating")));
    var sortOrder := TextOr(Get(query, "sortOrder"), Str("desc"));
    match ByProductCall(productId, page, limit, sortBy, sortOrder, connected, isValid)
    case Err(f) => Forward(f)
    case Ok(None) => Send(200, Data([]))
    case Ok(Some(c)) =>
      match list(c)
      case Ok(rows) => Send(200, Data(rows))
      case Err(f) => Forward(f)
  }

  /** Without parameters, the first ten reviews by descending rating. */
  lemma ReviewsByProductDefaults(productId: string, isValid: IdCheck)
    requires isValid(Str(productId))
    ensures var page, limit := NumberOr(Undefined, 1), NumberOr(Undefined, 10);
            ByProductCall(productId, page, limit, ToJsString(TextOr(Undefined, Str("rating"))),
                          TextOr(Undefined, Str("desc")), true, isValid)
            == Ok(Some(FindPage(productId, [SortKey("rating", -1)], 0, 10)))
  {
    assert TrimStart("undefined") == "undefined";
    assert DigitPrefix("undefined", 10) == [];
  }

  // ---------------------------------------------------------------- statistics

  /** `getReviewStatsForProductController`: 404 for an invalid product id, else the statistics of its groups. */
  method ReviewStatsForProduct(productId: string, isValid: IdCheck, connected: bool, groupBy: Grouper)
    returns (out: Outcome<Stats>)
    ensures !connected ==> out == Forward(PlainError(NoCollection))
    ensures connected && !isValid(Str(productId)) ==> out == Send(404, Message("Product not found or no reviews"))
    ensures connected && isValid(Str(productId)) && groupBy(GroupRatings(productId)).Err? ==>
              out == Forward(groupBy(GroupRatings(productId)).error)
    ensures connected && isValid(Str(productId)) && groupBy(GroupRatings(productId)).Ok? ==>
              var groups := groupBy(GroupRatings(productId)).value;
              out.Send? && out.status == 200 && out.payload.Data?
              && out.payload.data.totalReviews == TotalOf(groups)
              && out.payload.data.ratingCounts == Buckets(groups)
              && out.payload.data.averageRating == Average(WeightedSum(groups), TotalOf(groups))
  {
    match Guarded(connected, isValid(Str(productId)), GroupRatings(productId))
    case Err(f) =>
      out := Forward(f);
    case Ok(None) =>
      out := Send(404, Message("Product not found or no reviews"));
    case Ok(Some(c)) =>
      match groupBy(c)
      case Err(f) =>
        out := Forward(f);
      case Ok(groups) =>
        var stats := ReviewStats(groups);
        out := Send(200, Data(stats));
  }

  // ---------------------------------------------------------------- search

  /** The strict test `v === "true" ? true : v === "false" ? false : undefined`. */
  function StrictBoolean(v: JsValue): (r: Option<bool>)
    ensures r == Some(true) <==> v == Str("true")
    ensures r == Some(false) <==> v == Str("false")
  {
    if v == Str("true") then Some(true) else if v == Str("false") then Some(false) else None
  }

  /** `v === a || v === b ? v : undefined`. */
  function OneOf(v: JsValue, a: string, b: string): (r: Option<string>)
    ensures r.Some? <==> v == Str(a) || v == Str(b)
    ensures r.Some? ==> v == Str(r.value)
  {
    if v == Str(a) || v == Str(b) then Some(v.s) else None
  }

  /** How `advancedSearchReviewController` reads its query string. */
  function SearchParamsOf(query: Body): (p: SearchParams)
    ensures p.searchText.Some? <==> Truthy(Get(query, "searchText"))
    ensures p.searchText.Some? ==> p.searchText.value == ToJsString(Get(query, "searchText"))
    ensures p.rating.Some? <==> Truthy(Get(query, "rating"))
    ensures p.rating.Some? ==> p.rating.value == ParseIntValue(Get(query, "rating"), Decimal)
    ensures p.verifiedPurchase == StrictBoolean(Get(query, "verifiedPurchase"))
    ensures p.sortField == OneOf(Get(query, "sortField"), "rating", "likes")
    ensures p.sortOrder == OneOf(Get(query, "sortOrder"), "asc", "desc")
  {
    var searchText, rating := Get(query, "searchText"), Get(query, "rating");
    SearchParams(
      if Truthy(searchText) then Some(ToJsString(searchText)) else None,
      if Truthy(rating) then Some(ParseIntValue(rating, Decimal)) else None,
      StrictBoolean(Get(query, "verifiedPurchase")),
      OneOf(Get(query, "sortField"), "rating", "likes"),
      OneOf(Get(query, "sortOrder"), "asc", "desc"))
  }

  /**
   * `advancedSearchReviewController`: the parsed parameters go to the
   * search; a sort field other than "rating" or "likes" leaves the results
   * unsorted.
   */
  method SearchReviews(query: Body, connected: bool, list: ReviewLister) returns (call: Option<MongoCall>, out: Outcome<seq<Row>>)
    ensures !connected ==> call.None? && out == Forward(PlainError(NoCollection))
    ensures connected ==> call.Some? && call.value.Find?
    ensures call.Some? ==>
              (call.value.filter.text.Some? <==> Truthy(Get(query, "searchText")) && ToJsString(Get(query, "searchText")) != "")
    ensures call.Some? ==> (call.value.filter.rating.Some? <==> RatingInRange(SearchParamsOf(query).rating))
    ensures call.Some? ==> call.value.filter.verifiedPurchase == StrictBoolean(Get(query, "verifiedPurchase"))
    ensures call.Some? && call.value.filter.text.Some? ==> call.value.filter.text.value == ToJsString(Get(query, "searchText"))
    ensures call.Some? && call.value.filter.rating.Some? ==> call.value.filter.rating == ParseIntValue(Get(query, "rating"), Decimal)
    ensures call.Some? ==> (call.value.sort != [] <==> Get(query, "sortField") in {Str("rating"), Str("likes")})
    ensures call.Some? && call.value.sort != [] ==>
              call.value.sort == [SortKey(Get(query, "sortField").s, if Get(query, "sortOrder") == Str("asc") then 1 else -1)]
    ensures call.Some? && list(call.value).Ok? ==> out == Send(200, Data(list(call.value).value))
    ensures call.Some? && list(call.value).Err? ==> out == Forward(list(call.value).error)
  {
    var params := SearchParamsOf(query);
    var r := SearchCall(params, connected);
    match r
    case Err(f) =>
      call, out := None, Forward(f);
    case Ok(c) =>
      call := Some(c);
      match list(c)
      case Ok(rows) => out := Send(200, Data(rows));
      case Err(f) => out := Forward(f);
  }

  /** A rating parameter of "0" is truthy but outside 1..5: no rating filter. */
  lemma RatingZeroNotFiltered()
    ensures !RatingInRange(SearchParamsOf(map["rating" := Str("0")]).rating)
  {
    assert TrimStart("0") == "0";
    assert AfterSign("0") == "0";
    assert DigitPrefix("0", 10) == "0";
  }
}

=== FILE: review_model.dfy ===
/**
 * The MongoDB review model: which command each operation sends for which
 * input, the page and sort of a product's reviews, the filter and sort of
 * the advanced search, the effect of a like, and the statistics computed
 * from the per-rating groups.
 */
module ReviewModel {
  import opened Wrappers
  import opened Js
  import opened Records
  import opened Http

  /** A stored document: property name to value. */
  type Document = map<string, FieldValue>

  /** One key of a sort document: the field and 1 (ascending) or -1 (descending). */
  datatype SortKey = SortKey(field: string, direction: int)

  /** The filter of the advanced search: a `$text` search, an exact rating, a purchase flag; `None` leaves a key out. */
  datatype SearchFilter = SearchFilter(text: Option<string>, rating: Option<int>, verifiedPurchase: Option<bool>)

  /** An update document: `$set` of properties or `$inc` of one numeric property. */
  datatype UpdateDoc = SetFields(fields: Document) | Inc(field: string, amount: int)

  /** One command on the reviews collection; ids are the path strings turned into ObjectIds. */
  datatype MongoCall =
    | InsertOne(doc: seq<Field>)
    | FindOne(id: string)
    | FindEvery
    | FindOneAndUpdate(id: string, update: UpdateDoc)
    | FindOneAndDelete(id: string)
    | WithRelations(id: string)
    | FindPage(productId: string, sort: seq<SortKey>, skip: int, limit: int)
    | GroupRatings(productId: string)
    | Find(filter: SearchFilter, sort: seq<SortKey>)

  /** `ObjectId.isValid`, whose rules belong to the MongoDB driver. */
  type IdCheck = JsValue -> bool

  const NoCollection := "reviews collection not found"

  /**
   * The two guards every id-based operation starts with: a missing
   * collection throws; an id that is not a valid ObjectId yields `null`
   * (or `[]`) without a command; otherwise `call` is sent.
   */
  function Guarded(connected: bool, validId: bool, call: MongoCall): (r: Result<Option<MongoCall>, Failure>)
    ensures r.Err? <==> !connected
    ensures r.Err? ==> r.error == PlainError(NoCollection)
    ensures r.Ok? ==> (r.value.None? <==> !validId)
    ensures r.Ok? && r.value.Some? ==> r.value.value == call
  {
    if !connected then Err(PlainError(NoCollection))
    else if !validId then Ok(None)
    else Ok(Some(call))
  }

  /** `getReviewById`, `deleteReview`, `getReviewWithRelations`, `likeReview` and `partlyChangeReview` in one place. */
  function ByIdCall(id: string, connected: bool, isValid: IdCheck, call: MongoCall): (r: Result<Option<MongoCall>, Failure>)
    requires call.FindOne? || call.FindOneAndUpdate? || call.FindOneAndDelete? || call.WithRelations?
    requires call.id == id
    ensures !connected ==> r == Err(PlainError(NoCollection))
    ensures connected && !isValid(Str(id)) ==> r == Ok(None)
    ensures connected && isValid(Str(id)) ==> r == Ok(Some(call))
  {
    Guarded(connected, isValid(Str(id)), call)
  }

  // ---------------------------------------------------------------- paging

  /** `(page - 1) * limit`. */
  function PageSkip(page: int, limit: int): int {
    (page - 1) * limit
  }

  /** `sortOrder === "asc" ? 1 : -1`. */
  function Direction(sortOrder: JsValue): (d: int)
    ensures d == 1 <==> sortOrder == Str("asc")
    ensures d == 1 || d == -1
  {
    if sortOrder == Str("asc") then 1 else -1
  }

  /** `getReviewsByProduct`: the reviews of one product, sorted on one key, one page of `limit` after `skip`. */
  function ByProductCall(productId: string, page: int, limit: int, sortBy: string, sortOrder: JsValue,
                         connected: bool, isValid: IdCheck): (r: Result<Option<MongoCall>, Failure>)
    ensures !connected ==> r == Err(PlainError(NoCollection))
    ensures connected && !isValid(Str(productId)) ==> r == Ok(None)
    ensures connected && isValid(Str(productId)) ==>
              r.Ok? && r.value.Some? && r.value.value.FindPage? && r.value.value.productId == productId
              && r.value.value.limit == limit && r.value.value.skip == (page - 1) * limit
              && r.value.value.sort == [SortKey(sortBy, if sortOrder == Str("asc") then 1 else -1)]
  {
    Guarded(connected, isValid(Str(productId)),
            FindPage(productId, [SortKey(sortBy, Direction(sortOrder))], PageSkip(page, limit), limit))
  }

  /** Page 1 starts at the first review, and each page starts where the previous one ended. */
  lemma {:induction false} PagesTile(page: int, limit: int)
    ensures PageSkip(1, limit) == 0
    ensures PageSkip(page + 1, limit) == PageSkip(page, limit) + limit
  {
  }

  /** Page `p` (from 1) with a non-negative limit skips a non-negative count: reviews `(p-1)*limit` to `p*limit - 1`. */
  lemma PageWindow(page: int, limit: int)
    requires page >= 1 && limit >= 0
    ensures 0 <= PageSkip(page, limit)
    ensures PageSkip(page, limit) + limit == page * limit
  {
  }

  /** A page below 1 reaches the skip unchecked: page 0 with limit 10 skips -10. */
  lemma PageZeroSkipsBackwards()
    ensures PageSkip(0, 10) == -10
    ensures PageSkip(-1, 10) == -20
  {
  }

  // ---------------------------------------------------------------- search

  /** The parameters of `advancedSearchReviews`; a rating is `None` when absent and `Some(None)` when NaN. */
  datatype SearchParams = SearchParams(
    searchText: Option<string>,
    rating: Option<Option<int>>,
    verifiedPurchase: Option<bool>,
    sortField: Option<string>,
    sortOrder: Option<string>)

  /** `typeof rating === "number" && rating >= 1 && rating <= 5`: NaN fails both comparisons. */
  predicate RatingInRange(rating: Option<Option<int>>) {
    rating.Some? && rating.value.Some? && 1 <= rating.value.value <= 5
  }

  /**
   * `advancedSearchReviews`: each criterion adds its key to `filter` only
   * when it is usable, and a sort key is added only when a sort field is
   * given, ascending only for "asc".
   */
  method SearchCall(params: SearchParams, connected: bool) returns (r: Result<MongoCall, Failure>)
    ensures r.Err? <==> !connected
    ensures r.Err? ==> r.error == PlainError(NoCollection)
    ensures r.Ok? ==> r.value.Find?
    ensures r.Ok? ==> (r.value.filter.text.Some? <==> params.searchText.Some? && params.searchText.value != "")
    ensures r.Ok? && r.value.filter.text.Some? ==> r.value.filter.text == params.searchText
    ensures r.Ok? ==> (r.value.filter.rating.Some? <==> RatingInRange(params.rating))
    ensures r.Ok? && r.value.filter.rating.Some? ==> r.value.filter.rating == params.rating.value
    ensures r.Ok? ==> r.value.filter.verifiedPurchase == params.verifiedPurchase
    ensures r.Ok? ==> (r.value.sort == [] <==> params.sortField.None? || params.sortField.value == "")
    ensures r.Ok? && r.value.sort != [] ==>
              r.value.sort == [SortKey(params.sortField.value, if params.sortOrder == Some("asc") then 1 else -1)]
  {
    if !connected {
      return Err(PlainError(NoCollection));
    }
    var filter := SearchFilter(None, None, None);
    if params.searchText.Some? && params.searchText.value != "" {
      filter := filter.(text := params.searchText);
    }
    if RatingInRange(params.rating) {
      filter := filter.(rating := params.rating.value);
    }
    if params.verifiedPurchase.Some? {
      filter := filter.(verifiedPurchase := params.verifiedPurchase);
    }
    var sortQuery: seq<SortKey> := [];
    if params.sortField.Some? && params.sortField.value != "" {
      sortQuery := [SortKey(params.sortField.value, if params.sortOrder == Some("asc") then 1 else -1)];
    }
    r := Ok(Find(filter, sortQuery));
  }

  // ---------------------------------------------------------------- like

  const Likes := "likes"

  /** A stored value `$inc` accepts: a parsed integer, a parseFloat result or a number kept as sent. */
  predicate IsNumber(v: FieldValue) {
    v.Int? || v.Float? || (v.Raw? && v.v.Num?)
  }

  /**
   * What `$inc` does to a document: `Incremented` with the new document,
   * `NotNumeric` when the server rejects the update, and `Untracked` for a
   * number the model keeps symbolic, whose sum it does not compute.
   */
  datatype IncResult = Incremented(doc: Document) | NotNumeric | Untracked

  /**
   * `$inc`: a missing property becomes `amount`, an integer grows by
   * `amount`, NaN stays NaN; a value that is not a number makes the server
   * reject the update.
   */
  function ApplyInc(doc: Document, field: string, amount: int): (r: IncResult)
    ensures r.Incremented? <==> field !in doc || doc[field].Int?
    ensures r.NotNumeric? <==> field in doc && !IsNumber(doc[field])
    ensures r.Incremented? ==> r.doc.Keys == doc.Keys + {field} && r.doc[field].Int?
    ensures r.Incremented? ==> forall k :: k in doc && k != field ==> r.doc[k] == doc[k]
  {
    if field !in doc then Incremented(doc[field := Int(Some(amount))])
    else match doc[field]
      case Int(n) => Incremented(doc[field := Int(if n.Some? then Some(n.value + amount) else None)])
      case Float(_) => Untracked
      case Raw(Num(_)) => Untracked
      case _ => NotNumeric
  }

  /** `likeReview`: the update document of a like. */
  const LikeUpdate := Inc(Likes, 1)

  /** A like raises `likes` by exactly one and leaves every other property as it was. */
  lemma LikeAddsOne(doc: Document, n: int)
    requires Likes in doc && doc[Likes] == Int(Some(n))
    ensures ApplyInc(doc, LikeUpdate.field, LikeUpdate.amount) == Incremented(doc[Likes := Int(Some(n + 1))])
    ensures var after := ApplyInc(doc, LikeUpdate.field, LikeUpdate.amount).doc;
            after.Keys == doc.Keys && forall k :: k in doc && k != Likes ==> after[k] == doc[k]
  {
  }

  /** Two likes add two. */
  lemma TwoLikesAddTwo(doc: Document, n: int)
    requires Likes in doc && doc[Likes] == Int(Some(n))
    ensures var once := ApplyInc(doc, Likes, 1).doc;
            ApplyInc(once, Likes, 1) == Incremented(doc[Likes := Int(Some(n + 2))])
  {
    LikeAddsOne(doc, n);
    var once := doc[Likes := Int(Some(n + 1))];
    assert once[Likes := Int(Some(n + 2))] == doc[Likes := Int(Some(n + 2))];
  }

  // ---------------------------------------------------------------- statistics

  /** One group of the aggregation: a rating (the group `_id`) and how many reviews carry it. */
  datatype RatingGroup = RatingGroup(rating: int, count: nat)

  /** What `getReviewStatsForProduct` returns. */
  datatype Stats = Stats(averageRating: real, ratingCounts: map<int, nat>, totalReviews: nat)

  /** `{ 1: 0, 2: 0, 3: 0, 4: 0, 5: 0 }`. */
  const InitialCounts: map<int, nat> := map[1 := 0, 2 := 0, 3 := 0, 4 := 0, 5 := 0]

  /** The number of reviews over all groups. */
  function TotalOf(groups: seq<RatingGroup>): nat {
    if groups == [] then 0 else TotalOf(groups[..|groups| - 1]) + groups[|groups| - 1].count
  }

  /** The sum of all ratings: each group's rating times its count. */
  function WeightedSum(groups: seq<RatingGroup>): int {
    if groups == [] then 0
    else WeightedSum(groups[..|groups| - 1]) + groups[|groups| - 1].rating * groups[|groups| - 1].count
  }

  /** The rating table: the five zero buckets, each group writing its count under its rating, later groups last. */
  function Buckets(groups: seq<RatingGroup>): map<int, nat> {
    if groups == [] then InitialCounts
    else Buckets(groups[..|groups| - 1])[groups[|groups| - 1].rating := groups[|groups| - 1].count]
  }

  /** `totalReviews ? totalRatingSum / totalReviews : 0`. */
  function Average(sum: int, total: nat): real {
    if total == 0 then 0.0 else sum as real / total as real
  }

  /**
   * The statistics fold of `getReviewStatsForProduct` over the groups the
   * aggregation returned: an empty result gives the zero statistics;
   * otherwise one pass adds up the counts and the rating sum and writes
   * each group's count into the table.
   */
  method ReviewStats(groups: seq<RatingGroup>) returns (stats: Stats)
    ensures stats.totalReviews == TotalOf(groups)
    ensures stats.ratingCounts == Buckets(groups)
    ensures stats.averageRating == Average(WeightedSum(groups), TotalOf(groups))
    ensures groups == [] ==> stats == Stats(0.0, InitialCounts, 0)
  {
    if |groups| == 0 {
      return Stats(0.0, InitialCounts, 0);
    }
    var totalReviews: nat := 0;
    var totalRatingSum := 0;
    var ratingCounts := InitialCounts;
    for i := 0 to |groups|
      invariant totalReviews == TotalOf(groups[..i])
      invariant totalRatingSum == WeightedSum(groups[..i])
      invariant ratingCounts == Buckets(groups[..i])
    {
      assert groups[..i + 1][..i] == groups[..i];
      var rating, count := groups[i].rating, groups[i].count;
      totalReviews := totalReviews + count;
      totalRatingSum := totalRatingSum + rating * count;
      ratingCounts := ratingCounts[rating := count];
    }
    assert groups[..|groups|] == groups;
    var averageRating := if totalReviews != 0 then totalRatingSum as real / totalReviews as real else 0.0;
    stats := Stats(averageRating, ratingCounts, totalReviews);
  }

  predicate HasRating(groups: seq<RatingGroup>, r: int) {
    exists j :: 0 <= j < |groups| && groups[j].rating == r
  }

  /** Ratings of the groups are pairwise different, as grouping by rating makes them. */
  predicate DistinctRatings(groups: seq<RatingGroup>) {
    forall i, j :: 0 <= i < j < |groups| ==> groups[i].rating != groups[j].rating
  }

  /**
   * The table has the five buckets and one entry per group rating; a bucket
   * no group wrote stays 0, and with distinct ratings each group's count is
   * found under its rating.
   */
  lemma {:induction false} BucketsLookup(groups: seq<RatingGroup>, r: int)
    ensures r in Buckets(groups) <==> (1 <= r <= 5 || HasRating(groups, r))
    ensures 1 <= r <= 5 && !HasRating(groups, r) ==> Buckets(groups)[r] == 0
    ensures DistinctRatings(groups) ==>
              forall j :: 0 <= j < |groups| && groups[j].rating == r ==> Buckets(groups)[r] == groups[j].count
  {
    if groups != [] {
      var init, last := groups[..|groups| - 1], groups[|groups| - 1];
      BucketsLookup(init, r);
      assert HasRating(groups, r) <==> HasRating(init, r) || last.rating == r by {
        if HasRating(groups, r) {
          var j :| 0 <= j < |groups| && groups[j].rating == r;
          if j < |groups| - 1 {
            assert init[j] == groups[j];
          }
        }
        if HasRating(init, r) {
          var j :| 0 <= j < |init| && init[j].rating == r;
          assert groups[j] == init[j];
        }
      }
      if DistinctRatings(groups) {
        assert DistinctRatings(init) by {
          forall i, j | 0 <= i < j < |init| ensures init[i].rating != init[j].rating {
            assert init[i] == groups[i] && init[j] == groups[j];
          }
        }
        forall j | 0 <= j < |groups| && groups[j].rating == r ensures Buckets(groups)[r] == groups[j].count {
          if j < |groups| - 1 {
            assert init[j] == groups[j];
            assert last.rating != r;
          }
        }
      }
    }
  }

  /** The five buckets added up. */
  function BucketSum(m: map<int, nat>): int
    requires forall r :: 1 <= r <= 5 ==> r in m
  {
    m[1] + m[2] + m[3] + m[4] + m[5]
  }

  predicate RatingsInRange(groups: seq<RatingGroup>) {
    forall j :: 0 <= j < |groups| ==> 1 <= groups[j].rating <= 5
  }

  /** With distinct ratings from 1 to 5, the five buckets add up to the total number of reviews. */
  lemma {:induction false} BucketsSumToTotal(groups: seq<RatingGroup>)
    requires DistinctRatings(groups) && RatingsInRange(groups)
    ensures forall r :: 1 <= r <= 5 ==> r in Buckets(groups)
    ensures BucketSum(Buckets(groups)) == TotalOf(groups)
  {
    forall r | 1 <= r <= 5 ensures r in Buckets(groups) {
      BucketsLookup(groups, r);
    }
    if groups != [] {
      var init, last := groups[..|groups| - 1], groups[|groups| - 1];
      assert DistinctRatings(init) && RatingsInRange(init) by {
        forall i, j | 0 <= i < j < |init| ensures init[i].rating != init[j].rating {
          assert init[i] == groups[i] && init[j] == groups[j];
        }
        forall j | 0 <= j < |init| ensures 1 <= init[j].rating <= 5 {
          assert init[j] == groups[j];
        }
      }
      BucketsSumToTotal(init);
      assert !HasRating(init, last.rating) by {
        forall j | 0 <= j < |init| ensures init[j].rating != last.rating {
          assert init[j] == groups[j];
        }
      }
      BucketsLookup(init, last.rating);
      var before := Buckets(init);
      assert before[last.rating] == 0;
      var after := before[last.rating := last.count];
      assert BucketSum(after) == BucketSum(before) + last.count by {
        assert 1 <= last.rating <= 5;
      }
    }
  }

  /** With every rating from 1 to 5, the rating sum lies between the total and five times the total. */
  lemma {:induction false} WeightedSumBounds(groups: seq<RatingGroup>)
    requires RatingsInRange(groups)
    ensures TotalOf(groups) <= WeightedSum(groups) <= 5 * TotalOf(groups)
  {
    if groups != [] {
      var init, last := groups[..|groups| - 1], groups[|groups| - 1];
      assert RatingsInRange(init) by {
        forall j | 0 <= j < |init| ensures 1 <= init[j].rating <= 5 {
          assert init[j] == groups[j];
        }
      }
      WeightedSumBounds(init);
      assert last.count <= last.rating * last.count <= 5 * last.count by {
        assert 1 <= last.rating <= 5;
      }
    }
  }

  /** The average of ratings from 1 to 5 is itself between 1 and 5, unless there is no review (then 0). */
  lemma AverageInRange(groups: seq<RatingGroup>)
    requires RatingsInRange(groups)
    ensures TotalOf(groups) == 0 ==> Average(WeightedSum(groups), TotalOf(groups)) == 0.0
    ensures TotalOf(groups) > 0 ==> 1.0 <= Average(WeightedSum(groups), TotalOf(groups)) <= 5.0
  {
    WeightedSumBounds(groups);
    var s, t := WeightedSum(groups), TotalOf(groups);
    if t > 0 {
      RatioBounds(s as real, t as real);
    }
  }

  lemma RatioBounds(s: real, t: real)
    requires 0.0 < t <= s <= 5.0 * t
    ensures 1.0 <= s / t <= 5.0
  {
    var inv := 1.0 / t;
    assert inv > 0.0;
    assert s / t == s * inv;
    assert t * inv == 1.0;
    assert s / t - 1.0 == (s - t) * inv;
    assert 5.0 - s / t == (5.0 * t - s) * inv;
  }
}

=== FILE: wrappers.dfy ===
/** Option and Result, the two failure-carrying shapes the rest of the model uses. */
module Wrappers {

  /** An optional value: `None` stands for JavaScript's `undefined`, `null` or NaN, as each use says. */
  datatype Option<+T> = None | Some(value: T)

  /** The outcome of an operation that may throw: `Err` carries what would be thrown. */
  datatype Result<+T, +E> = Ok(value: T) | Err(error: E)
}
